=== FILE: README.md ===
# Government certificate portal — verification workflow, accounts and stores

This project models the service layer of a Spring portal that issues government
certificates (income, caste, domicile, birth). A citizen submits an application with
uploaded proofs. The application then moves through a chain of verification desks:

- a junior verifier at DESK_1;
- a senior verifier at DESK_2;
- UNDER_CERTIFICATE_GENERATION, where a certificate PDF is attached.

A verifier may also hand the application back to the applicant, by rejecting it or by
requesting changes. Every such action appends a record to an audit log.

Around this workflow sit:

- the administrator's verifier accounts and statistics;
- registration, login, password reset and e-mail verification over a user table and a
  one-time token table;
- a key/value configuration store.

The repository contains two copies of several services: an older one under
`govportal/src/` (and `backend/` for authentication) and a newer one under
`govportal/backend/`. Where the copies of a modelled method differ, both are modelled
(the one exception, the older details view, is listed under "## Left out"):

- module `X` is the newer copy;
- module `LegacyX` is the older one.

Where a method of the older copy behaves the same as the newer one, it is modelled once.
The paragraph before the table lists those older-copy spans.

Each service call is one atomic step over a single `Store.Database` object. The database
holds:

- the tables, as maps keyed by id (tokens keyed by their unique value, configuration by
  its key);
- the audit log, as an append-only sequence;
- the IDENTITY counters.

`Database.Valid()` states the schema's constraints: keys match ids and lie below their
counter, foreign keys resolve, and email, Aadhaar number and token value are unique.
Every state-changing method keeps `Valid()` and states its whole new state.

The following become parameters:

- time, as a `nat` number of seconds;
- UUIDs;
- the certificate renderer (`Application -> Option<Bytes>`, with `None` for a failure);
- the outcome of storing each uploaded file (`string -> bool`).

Password hashing is an injective stand-in (`Domain.EncodePassword`). Java's
`String.split(" ")`, `toUpperCase` (on ASCII letters only), `Enum.valueOf` and `%d` formatting are written
out in module `Text`.

Module layout:

| file | module | models |
|---|---|---|
| common.dfy | Common | Option, Result, the exceptions as an `Error` datatype |
| text.dfy | Text | upper-casing, splitting at spaces, decimal formatting |
| domain.dfy | Domain | DocumentApplication, User, Token, AuditLog records and enums |
| store.dfy | Store | the shared tables and their constraints |
| audit.dfy | Audit | AuditServiceImpl |
| verification.dfy | Verification | VerificationServiceImpl (newer; shared parts of both) |
| legacy_verification.dfy | LegacyVerification | VerificationServiceImpl (older approve) |
| documents.dfy | Documents | DocumentServiceImpl (newer; shared parts of both) |
| legacy_documents.dfy | LegacyDocuments | DocumentServiceImpl (older) |
| admin.dfy | Admin | AdminServiceImpl (newer; shared parts of both) |
| legacy_admin.dfy | LegacyAdmin | AdminServiceImpl (older create and view) |
| tokens.dfy | Tokens | TokenServiceImpl |
| auth.dfy | Auth | AuthServiceImpl (both copies, except the older reset) |
| legacy_auth.dfy | LegacyAuth | AuthServiceImpl (older completePasswordReset) |
| config.dfy | Config | SystemConfigServiceImpl |

The table gives one row per member and cites the newer copy. The following methods of the
older copy behave the same, up to exception messages and logging. For example, the newer
`authenticateUser` catches and rethrows its exceptions, which keeps their class. Each is
covered by the member named, so it has no row of its own:

- `govportal/src/main/java/com/sunbeam/service/impl/VerificationServiceImpl.java`:
  - lines 48-62 (`Verification.PendingApplications`);
  - lines 87-100 (`Verification.Reject`, `Verification.RejectApplication`);
  - lines 102-117 (`Verification.RequestChanges`, `Verification.RequestChangesToApplication`);
  - lines 149-152 (`Verification.FindApplication`).
- `govportal/src/main/java/com/sunbeam/service/impl/DocumentServiceImpl.java`:
  - lines 101-108 (`Verification.FindApplication`);
  - lines 160-176 (`Documents.CertificatePdf`).
- `govportal/src/main/java/com/sunbeam/service/impl/AdminServiceImpl.java`:
  - lines 50-61 (`Admin.DeleteVerifierAccount`);
  - lines 63-72 (`Admin.ToggleUserBlockStatus`);
  - lines 91-97 (`Admin.ApplicationsWithStatus`).
- `govportal/src/main/java/com/sunbeam/service/impl/AuthServiceImpl.java`:
  - lines 42-66 (`Auth.RegisterUser`);
  - lines 68-89 (`Auth.AuthenticateUser`);
  - lines 91-99 (`Auth.InitiatePasswordReset`);
  - lines 117-127 (`Auth.VerifyEmail`).

## Model

| member | source | states |
|---|---|---|
| Domain.ParseDocumentType | govportal/src/main/java/com/sunbeam/model/DocumentApplication.java:79-85 | a parsed type's name is the upper-cased text; on failure the error is InvalidDocumentType and no constant has that name |
| Domain.ParseDocumentTypeName | govportal/src/main/java/com/sunbeam/model/DocumentApplication.java:76-81 | round trip: parsing the name of any document type gives that type back |
| Domain.ParseDocumentTypeAnyCase | govportal/src/main/java/com/sunbeam/model/DocumentApplication.java:79-81 | any text whose upper-case form is a constant's name parses to that constant, whatever its letter case |
| Domain.ParseStatus | govportal/src/main/java/com/sunbeam/model/DocumentApplication.java:88-90 | a parsed status's name is the upper-cased text; unknown names fail with IllegalArgument (valueOf) and match none of the six statuses |
| Domain.ParseStatusName | govportal/src/main/java/com/sunbeam/model/DocumentApplication.java:88-90 | round trip: parsing the name of any status gives that status back |
| Domain.ParseDesignation | govportal/backend/src/main/java/com/sunbeam/model/User.java:85-88 | a parsed designation's name is the upper-cased text; unknown names fail with IllegalArgument and match neither designation |
| Domain.ParseDesignationName | govportal/backend/src/main/java/com/sunbeam/model/User.java:85-88 | round trip: parsing the name of either designation gives it back |
| Domain.NewUser | govportal/backend/src/main/java/com/sunbeam/model/User.java:48-57 | a user built with the no-argument constructor is a CITIZEN, not enabled, not blocked, with no designation |
| Domain.FullNameSplits | govportal/backend/src/main/java/com/sunbeam/model/User.java:91-93 | the full name (first + " " + last) of one-word names splits back into exactly those two names |
| Domain.FindByEmail | govportal/backend/src/main/java/com/sunbeam/model/User.java:40 | with unique emails, the lookup returns the one user with that email, or none when no user has it |
| Domain.EncodePasswordInjective | backend/src/main/java/com/sunbeam/service/impl/AuthServiceImpl.java:53 | different raw passwords never encode to the same stored password |
| Text.ToUpper | govportal/src/main/java/com/sunbeam/model/DocumentApplication.java:81 | upper-casing restricted to ASCII: same length, no ASCII lower-case letter left, and text without one is unchanged |
| Text.Split | govportal/backend/src/main/java/com/sunbeam/service/impl/AdminServiceImpl.java:44-45 | no part contains a space; text without a space is a single part; trailing empty parts are dropped |
| Text.JoinFields | govportal/backend/src/main/java/com/sunbeam/service/impl/AdminServiceImpl.java:44-45 | joining the space-separated fields with single spaces rebuilds the text exactly |
| Text.SplitTwoWords | govportal/backend/src/main/java/com/sunbeam/service/impl/AdminServiceImpl.java:44-45 | two non-empty words joined by one space split back into exactly those words |
| Text.DecimalRoundTrip | govportal/backend/src/main/java/com/sunbeam/service/impl/AuditServiceImpl.java:69-72 | the decimal text of an id reads back as that id |
| Text.CutAtFirstJoin | govportal/backend/src/main/java/com/sunbeam/service/impl/DocumentServiceImpl.java:76-77 | cutting text at the first occurrence of a separator absent from the prefix gives the prefix and the rest back |
| Audit.LogActivity | govportal/backend/src/main/java/com/sunbeam/service/impl/AuditServiceImpl.java:46-59 | appends exactly one record with the current user, the action, the details and the time; earlier records are untouched |
| Audit.LogDocumentStatusChange | govportal/backend/src/main/java/com/sunbeam/service/impl/AuditServiceImpl.java:61-77 | appends one record whose action is "DOCUMENT_" + action and whose details are "Document ID: id \| Action: action \| Remarks: remarks" |
| Audit.DocumentIdOfStatusChange | govportal/backend/src/main/java/com/sunbeam/service/impl/AuditServiceImpl.java:69-72 | the document id can be read back from a status-change record's details |
| Audit.UserRecords | govportal/backend/src/main/java/com/sunbeam/service/impl/AuditServiceImpl.java:39-44 | the user's records are exactly the log records carrying that user id: none of anyone else, none missing |
| Audit.UserRecordsAppendOther | govportal/backend/src/main/java/com/sunbeam/service/impl/AuditServiceImpl.java:41-43 | a record appended for another user does not change a user's view of the log |
| Audit.UserRecordsAppendOwn | govportal/backend/src/main/java/com/sunbeam/service/impl/AuditServiceImpl.java:41-43 | a record appended for the user extends their view by exactly that record |
| Audit.GetAuditLogs | govportal/backend/src/main/java/com/sunbeam/service/impl/AuditServiceImpl.java:32-37 | returns the whole log and changes nothing |
| Audit.GetUserAuditLogs | govportal/backend/src/main/java/com/sunbeam/service/impl/AuditServiceImpl.java:39-44 | returns exactly the caller-given user's records and changes nothing |
| Verification.PendingApplications | govportal/backend/src/main/java/com/sunbeam/service/impl/VerificationServiceImpl.java:106-121 | exactly the DESK_1 applications for a junior, exactly the DESK_2 ones for a senior, UnsupportedOperation when there is no designation |
| Verification.StatsOf | govportal/backend/src/main/java/com/sunbeam/service/impl/VerificationServiceImpl.java:188-202 | the two desk counts never exceed the total, nor do the pending, approved and rejected counts together |
| Verification.GetVerificationStats | govportal/src/main/java/com/sunbeam/service/impl/VerificationServiceImpl.java:131-145 | the statistics are the counts over the table and nothing is written |
| Verification.StatusPartition | govportal/src/main/java/com/sunbeam/model/DocumentApplication.java:88-90 | the six status counts add up to the number of applications |
| Verification.DeskPartition | govportal/backend/src/main/java/com/sunbeam/service/impl/VerificationServiceImpl.java:193-201 | the four desk counts add up to the number of applications |
| Verification.PendingMatchesStats | govportal/backend/src/main/java/com/sunbeam/service/impl/VerificationServiceImpl.java:111-119 | a verifier's pending list is as long as the statistics' count for their desk |
| Verification.ApprovedIsCertificateDesk | govportal/backend/src/main/java/com/sunbeam/service/impl/VerificationServiceImpl.java:193-201 | in a table where desk and status agree, at least as many applications are APPROVED as sit at certificate generation, and at least as many PENDING as sit on DESK_1 |
| Verification.Approve | govportal/backend/src/main/java/com/sunbeam/service/impl/VerificationServiceImpl.java:128-139 | junior at DESK_1: DESK_2 with status unchanged; senior at DESK_2: certificate generation and APPROVED; otherwise desk and status unchanged; in every case resolvedDate and approvedBy are stamped and the submission is untouched |
| Verification.ApprovePreservesConsistency | govportal/backend/src/main/java/com/sunbeam/service/impl/VerificationServiceImpl.java:128-137 | approval keeps desk and status in agreement |
| Verification.ApproveMovesForward | govportal/backend/src/main/java/com/sunbeam/service/impl/VerificationServiceImpl.java:128-137 | approval only ever moves an application forward along the desk chain, or leaves it where it is |
| Verification.ApprovedOnlyBySenior | govportal/backend/src/main/java/com/sunbeam/service/impl/VerificationServiceImpl.java:133-137 | an approval that produces APPROVED was a senior's, at DESK_2 |
| Verification.JuniorsNeverApprove | govportal/backend/src/main/java/com/sunbeam/service/impl/VerificationServiceImpl.java:128-131 | two junior approvals in a row leave the application on DESK_2 with its original status |
| Verification.ApproveAtApplicantDesk | govportal/backend/src/main/java/com/sunbeam/service/impl/VerificationServiceImpl.java:128-139 | approving an application that was handed back changes neither desk nor status, yet stamps it |
| Verification.Reject | govportal/backend/src/main/java/com/sunbeam/service/impl/VerificationServiceImpl.java:155-168 | from any state: APPLICANT desk, REJECTED, resolvedDate stamped, the remarks as reason; approver and certificate kept |
| Verification.RequestChanges | govportal/backend/src/main/java/com/sunbeam/service/impl/VerificationServiceImpl.java:170-185 | APPLICANT desk, CHANGES_REQUESTED, the remarks as reason; resolvedDate left as it was |
| Verification.HandBackIsConsistent | govportal/backend/src/main/java/com/sunbeam/service/impl/VerificationServiceImpl.java:158-182 | rejection and a change request both leave desk and status in agreement |
| Verification.RejectAfterApproval | govportal/backend/src/main/java/com/sunbeam/service/impl/VerificationServiceImpl.java:155-168 | rejection has no state check: even an approved application goes back to the applicant as REJECTED |
| Verification.RejectTwice | govportal/backend/src/main/java/com/sunbeam/service/impl/VerificationServiceImpl.java:155-168 | a second rejection simply overwrites the reason and the date of the first |
| Verification.JuniorStepCounts | govportal/backend/src/main/java/com/sunbeam/service/impl/VerificationServiceImpl.java:128-131 | one junior approval moves one application from the DESK_1 count to the DESK_2 count |
| Verification.FindApplication | govportal/backend/src/main/java/com/sunbeam/service/impl/VerificationServiceImpl.java:206-209 | the stored application, or ResourceNotFound exactly when the id is unknown |
| Verification.WithCertificate | govportal/backend/src/main/java/com/sunbeam/service/impl/VerificationServiceImpl.java:141-149 | an application at certificate generation takes the rendered bytes, and fails exactly when rendering fails; any other is kept as routed |
| Verification.ApproveApplication | govportal/backend/src/main/java/com/sunbeam/service/impl/VerificationServiceImpl.java:123-153 | the corrected version (third finding below): unknown id: nothing changes; rendering failure: the application is left as it was, one PDF_GENERATION_FAILED record is kept, and the call fails; otherwise the routed (and certified) application is saved and one DOCUMENT_APPROVED record appended |
| Verification.ApproveApplicationAsWritten | govportal/backend/src/main/java/com/sunbeam/service/impl/VerificationServiceImpl.java:123-153 | as written: on a rendering failure both the save and the failure record are rolled back, so the log is unchanged |
| Verification.RejectApplication | govportal/backend/src/main/java/com/sunbeam/service/impl/VerificationServiceImpl.java:155-168 | unknown id: nothing changes; otherwise the rejected application is saved and exactly one DOCUMENT_REJECTED record appended |
| Verification.RequestChangesToApplication | govportal/backend/src/main/java/com/sunbeam/service/impl/VerificationServiceImpl.java:170-185 | unknown id: nothing changes; otherwise the handed-back application is saved and exactly one CHANGES_REQUESTED record appended |
| LegacyVerification.Approve | govportal/src/main/java/com/sunbeam/service/impl/VerificationServiceImpl.java:69-81 | with the desk compared by value: junior at DESK_1 goes to DESK_2 and UNDER_REVIEW, senior at DESK_2 to certificate generation and APPROVED, otherwise unchanged; always stamped |
| LegacyVerification.ApproveAsWritten | govportal/src/main/java/com/sunbeam/service/impl/VerificationServiceImpl.java:69-81 | as written, with `==` on strings: a desk string loaded from the database never matches, so desk and status stay unchanged while the stamps are still set |
| LegacyVerification.AsWrittenJuniorStuck | govportal/src/main/java/com/sunbeam/service/impl/VerificationServiceImpl.java:69-72 | a junior's approval of a loaded DESK_1 application leaves it on DESK_1 as written, but moves it to DESK_2 when compared by value |
| LegacyVerification.AsWrittenNeverApproves | govportal/src/main/java/com/sunbeam/service/impl/VerificationServiceImpl.java:73-77 | as written, no loaded application ever becomes APPROVED |
| LegacyVerification.CopiesAgreeOnDesk | govportal/src/main/java/com/sunbeam/service/impl/VerificationServiceImpl.java:69-81 | the two copies route to the same desk; they differ only in the junior step's status |
| LegacyVerification.ApprovePreservesConsistency | govportal/src/main/java/com/sunbeam/service/impl/VerificationServiceImpl.java:69-77 | the older approval keeps desk and status in agreement |
| LegacyVerification.ApproveApplication | govportal/src/main/java/com/sunbeam/service/impl/VerificationServiceImpl.java:64-85 | the corrected version (first finding below), with the desk compared by value: unknown id: nothing changes; otherwise the routed and stamped application is saved and one DOCUMENT_APPROVED record appended, with no certificate |
| LegacyVerification.ApproveApplicationAsWritten | govportal/src/main/java/com/sunbeam/service/impl/VerificationServiceImpl.java:64-85 | as written, on an application loaded from the database: unknown id: nothing changes; otherwise desk and status stay as they were, yet the application is stamped and saved and one DOCUMENT_APPROVED record is appended |
| Documents.ObjectNameRoundTrip | govportal/backend/src/main/java/com/sunbeam/service/impl/DocumentServiceImpl.java:76-77 | the object name "documents/" + uuid + "_" + filename gives the uuid and the original filename back |
| Documents.SplitObjectName | govportal/backend/src/main/java/com/sunbeam/service/impl/DocumentServiceImpl.java:76-77 | whatever the split returns rebuilds the object name |
| Documents.ExpectedProofs | govportal/backend/src/main/java/com/sunbeam/service/impl/DocumentServiceImpl.java:90-95 | one proof per file, in upload order, with consecutive ids, the original filename, the stored location and the content type |
| Documents.NewApplication | govportal/backend/src/main/java/com/sunbeam/service/impl/DocumentServiceImpl.java:61-69 | a new application is PENDING at DESK_1, stamped with the submission time, with the request's applicant, type, purpose and form data and nothing else set |
| Documents.UploadProofs | govportal/backend/src/main/java/com/sunbeam/service/impl/DocumentServiceImpl.java:75-98 | succeeds exactly when every file is stored, and then returns the expected proofs and advances the proof counter by the number of files |
| Documents.Submit | govportal/backend/src/main/java/com/sunbeam/service/impl/DocumentServiceImpl.java:58-115 | an unknown type fails before any save; a failed upload fails with the table as it was; otherwise the new application with its proofs is stored under the next id |
| Documents.SubmitApplication | govportal/backend/src/main/java/com/sunbeam/service/impl/DocumentServiceImpl.java:58-115 | the newer submission stores files under their object names and reports an upload failure as DatabaseOperation; an unknown type changes nothing, counters included; a success stores the new application under the next id and advances the application counter by one and the proof counter by the number of files |
| Documents.ApplicationById | govportal/backend/src/main/java/com/sunbeam/service/impl/DocumentServiceImpl.java:130-141 | the stored application, or DatabaseOperation for an unknown id (the not-found error is caught and rewrapped) |
| Documents.CertificatePdf | govportal/backend/src/main/java/com/sunbeam/service/impl/DocumentServiceImpl.java:143-162 | ResourceNotFound for an unknown id, IllegalState unless APPROVED, otherwise the stored certificate unchanged |
| Documents.ApplicationDetails | govportal/backend/src/main/java/com/sunbeam/service/impl/DocumentServiceImpl.java:164-196 | DocumentNotFound for an unknown id; otherwise every copied field equals the stored one (form data, type, status, purpose, reason, desk, dates, applicant id), the approver id is absent exactly when no approver is stored, the applicant's full name and Aadhaar number are shown, and each proof's id, name, content type and path are listed in stored order |
| Documents.DetailsAgreeWithLookup | govportal/backend/src/main/java/com/sunbeam/service/impl/DocumentServiceImpl.java:164-196 | the details view exists exactly when the plain lookup finds the id, and it shows that application's status, desk, reason, approver and one view per proof |
| Documents.MyApplications | govportal/backend/src/main/java/com/sunbeam/service/impl/DocumentServiceImpl.java:117-128 | exactly the caller's own applications |
| Documents.ApprovalPasses | govportal/backend/src/main/java/com/sunbeam/service/impl/DocumentServiceImpl.java:204-216 | exactly the caller's APPROVED applications |
| Documents.ApprovalPassesDownloadable | govportal/backend/src/main/java/com/sunbeam/service/impl/DocumentServiceImpl.java:208-210 | every approval pass is one of the caller's applications and its certificate download succeeds |
| LegacyDocuments.SubmitApplication | govportal/src/main/java/com/sunbeam/service/impl/DocumentServiceImpl.java:57-99 | the older submission stores files under upload directory + "/" + stored name and reports a failed copy as FileStorage; an unknown type changes nothing, counters included; a success stores the new application under the next id and advances both counters as the newer one does |
| LegacyDocuments.AllApplications | govportal/src/main/java/com/sunbeam/service/impl/DocumentServiceImpl.java:154-158 | every stored application, whoever submitted it |
| LegacyDocuments.AllApplicationsShowsOthers | govportal/src/main/java/com/sunbeam/service/impl/DocumentServiceImpl.java:154-158 | the older listing includes other applicants' applications, which the newer listing excludes |
| LegacyDocuments.LegacyApprovalHasNoCertificate | govportal/src/main/java/com/sunbeam/service/impl/DocumentServiceImpl.java:160-176 | with the desk comparison corrected, the older senior approval sets APPROVED without a certificate, so the download succeeds with no bytes |
| LegacyDocuments.LegacyApprovalAsWrittenRefused | govportal/src/main/java/com/sunbeam/service/impl/DocumentServiceImpl.java:160-176 | with the older approval as written, a loaded DESK_2 application that was not APPROVED is still not APPROVED, so its download fails with IllegalState |
| LegacyDocuments.NewerApprovalHasCertificate | govportal/backend/src/main/java/com/sunbeam/service/impl/DocumentServiceImpl.java:143-162 | after the newer senior approval, the download returns the rendered certificate |
| LegacyDocuments.RejectedCertificateRefused | govportal/backend/src/main/java/com/sunbeam/service/impl/DocumentServiceImpl.java:147-155 | after a rejection the certificate can no longer be downloaded, even though it is still stored |
| Admin.MapToUserResponse | govportal/backend/src/main/java/com/sunbeam/service/impl/AdminServiceImpl.java:135-146 | the view carries the user's id, email, role, designation and flags, and the full name first + " " + last |
| Admin.NewVerifier | govportal/backend/src/main/java/com/sunbeam/service/impl/AdminServiceImpl.java:42-55 | an unknown designation fails with IllegalArgument, then a one-word name with IndexOutOfBounds; otherwise an enabled, unblocked VERIFIER with the designation parsed case-insensitively and the names at split positions 0 and 1 |
| Admin.NewVerifierNameRoundTrip | govportal/backend/src/main/java/com/sunbeam/service/impl/AdminServiceImpl.java:44-45 | a two-word full name becomes the first and last name, and the view shows it back as given |
| Admin.OneWordNameFails | govportal/backend/src/main/java/com/sunbeam/service/impl/AdminServiceImpl.java:44-45 | a one-word full name makes the creation fail |
| Admin.CreateVerifierAccount | govportal/backend/src/main/java/com/sunbeam/service/impl/AdminServiceImpl.java:36-61 | a registered email fails first and adds no user; a build failure or a duplicate Aadhaar number adds none; otherwise exactly the new verifier is added under the next id |
| Admin.DeleteVerifierAccount | govportal/backend/src/main/java/com/sunbeam/service/impl/AdminServiceImpl.java:69-81 | unknown id: UserNotFound; not a verifier: IllegalArgument; still referenced: DataIntegrityViolation; otherwise exactly that user is removed |
| Admin.SetBlocked | govportal/backend/src/main/java/com/sunbeam/service/impl/AdminServiceImpl.java:97-101 | only the blocked flag of that one user changes |
| Admin.SetBlockedIdempotent | govportal/backend/src/main/java/com/sunbeam/service/impl/AdminServiceImpl.java:97-101 | setting the flag twice to the same value equals setting it once |
| Admin.BlockThenUnblock | govportal/backend/src/main/java/com/sunbeam/service/impl/AdminServiceImpl.java:97-101 | blocking then unblocking an unblocked user restores the table exactly |
| Admin.ToggleUserBlockStatus | govportal/backend/src/main/java/com/sunbeam/service/impl/AdminServiceImpl.java:94-104 | unknown id: UserNotFound and nothing changes; otherwise only that user's blocked flag becomes the given value |
| Admin.SystemStatistics | govportal/backend/src/main/java/com/sunbeam/service/impl/AdminServiceImpl.java:108-124 | citizens plus active verifiers never exceed the users, active verifiers are at most the verifiers, and the pending and approved counts equal the verification statistics' |
| Admin.GetSystemStatistics | govportal/src/main/java/com/sunbeam/service/impl/AdminServiceImpl.java:80-89 | both copies compute the same counts and write nothing |
| Admin.BlockingCounts | govportal/backend/src/main/java/com/sunbeam/service/impl/AdminServiceImpl.java:111-115 | blocking an unblocked user raises blockedAccounts by one and changes no other count |
| Admin.UsersWithRole | govportal/backend/src/main/java/com/sunbeam/service/impl/AdminServiceImpl.java:63-92 | the verifier and citizen listings hold exactly the users with that role |
| Admin.CitizenListingMatchesStatistics | govportal/src/main/java/com/sunbeam/service/impl/AdminServiceImpl.java:74-89 | the citizen listing has as many entries as the statistics count citizens |
| Admin.CreatedVerifierCounts | govportal/backend/src/main/java/com/sunbeam/service/impl/AdminServiceImpl.java:48-50 | a created verifier appears in the verifier listing and raises the active-verifier count by one |
| Admin.ApplicationsWithStatus | govportal/backend/src/main/java/com/sunbeam/service/impl/AdminServiceImpl.java:126-132 | no status or an empty one lists everything; otherwise exactly the applications whose status name is the upper-cased text, or IllegalArgument for an unknown name |
| Admin.ApplicationsWithStatusName | govportal/backend/src/main/java/com/sunbeam/service/impl/AdminServiceImpl.java:128-131 | filtering by a status's own name lists exactly the applications with that status |
| LegacyAdmin.NewVerifier | govportal/src/main/java/com/sunbeam/service/impl/AdminServiceImpl.java:37-44 | an enabled VERIFIER with the names at split positions 0 and 1, with no designation and no Aadhaar number; fails exactly when the name has fewer than two words |
| LegacyAdmin.CreateVerifierAccount | govportal/src/main/java/com/sunbeam/service/impl/AdminServiceImpl.java:30-48 | a registered email fails and adds no user; otherwise exactly the new verifier is added under the next id |
| LegacyAdmin.MapToUserResponse | govportal/src/main/java/com/sunbeam/service/impl/AdminServiceImpl.java:99-107 | the older view shows id, name, email, role and blocked flag; enabled is never copied and reads false |
| LegacyAdmin.CopiesDifferInDesignation | govportal/src/main/java/com/sunbeam/service/impl/AdminServiceImpl.java:37-44 | the two copies build the same verifier except for the designation and the Aadhaar number |
| LegacyAdmin.LegacyVerifierHasNoQueue | govportal/src/main/java/com/sunbeam/service/impl/AdminServiceImpl.java:37-44 | a verifier created by the older copy gets UnsupportedOperation from the pending listing |
| LegacyAdmin.LegacyViewHidesEnabled | govportal/src/main/java/com/sunbeam/service/impl/AdminServiceImpl.java:99-107 | the older view reports every enabled user as not enabled |
| Tokens.VerificationToken | govportal/src/main/java/com/sunbeam/service/impl/TokenServiceImpl.java:24-32 | a VERIFICATION token for the given value and user, live 24 hours after creation and expired one second later |
| Tokens.ResetToken | govportal/src/main/java/com/sunbeam/service/impl/TokenServiceImpl.java:34-42 | a PASSWORD_RESET token for the given value and user, live 2 hours after creation and expired one second later |
| Tokens.ExpiredStaysExpired | govportal/src/main/java/com/sunbeam/service/impl/TokenServiceImpl.java:49 | an expired token stays expired at every later time |
| Tokens.CreateVerificationToken | govportal/src/main/java/com/sunbeam/service/impl/TokenServiceImpl.java:24-32 | stores exactly one verification token under its value, or fails with DataIntegrityViolation on a duplicate value |
| Tokens.CreatePasswordResetToken | govportal/src/main/java/com/sunbeam/service/impl/TokenServiceImpl.java:34-42 | stores exactly one reset token under its value, or fails with DataIntegrityViolation on a duplicate value |
| Tokens.Validation | govportal/src/main/java/com/sunbeam/service/impl/TokenServiceImpl.java:44-55 | succeeds exactly for a stored token that is not expired and returns it unchanged; otherwise InvalidToken |
| Tokens.ValidateToken | govportal/src/main/java/com/sunbeam/service/impl/TokenServiceImpl.java:44-55 | the token is deleted exactly when it was found expired; otherwise the table is unchanged |
| Tokens.VerificationTokenWindow | govportal/src/main/java/com/sunbeam/service/impl/TokenServiceImpl.java:29-30 | a new verification token validates throughout its 24 hours and fails afterwards |
| Tokens.ResetTokenWindow | govportal/src/main/java/com/sunbeam/service/impl/TokenServiceImpl.java:39-40 | a new reset token validates throughout its 2 hours and fails afterwards |
| Tokens.ExpiredValidationIsFinal | govportal/src/main/java/com/sunbeam/service/impl/TokenServiceImpl.java:49-52 | after a validation that found the token expired, any later validation fails |
| Auth.RegisteredUser | backend/src/main/java/com/sunbeam/service/impl/AuthServiceImpl.java:52-55 | the registered user is a disabled, unblocked CITIZEN with the request's names, email, Aadhaar number and encoded password |
| Auth.RegisterUser | backend/src/main/java/com/sunbeam/service/impl/AuthServiceImpl.java:46-70 | a registered email fails first; a unique-column clash stores nothing; otherwise exactly the new user and one 24-hour verification token for them are stored |
| Auth.AuthenticateUser | backend/src/main/java/com/sunbeam/service/impl/AuthServiceImpl.java:72-104 | succeeds exactly for a user with that email, the right password, enabled and not blocked; otherwise BadCredentials, AccountDisabled or AccountBlocked |
| Auth.DisabledBeforeBlocked | backend/src/main/java/com/sunbeam/service/impl/AuthServiceImpl.java:86-87 | a disabled account is reported as disabled even when it is also blocked |
| Auth.BlockedUserCannotLogIn | govportal/src/main/java/com/sunbeam/service/impl/AuthServiceImpl.java:79-80 | after an administrator blocks an enabled user, their correct password fails with AccountBlocked |
| Auth.InitiatePasswordReset | backend/src/main/java/com/sunbeam/service/impl/AuthServiceImpl.java:106-115 | unknown email: UserNotFound and no token; otherwise one 2-hour reset token for that user |
| Auth.CompletePasswordReset | backend/src/main/java/com/sunbeam/service/impl/AuthServiceImpl.java:117-133 | the corrected version (second finding below): unknown token: InvalidToken; expired: the token is deleted and TokenExpired, password untouched; otherwise only the owner's password changes and the token is deleted; in every case the token cannot be used again |
| Auth.CompletePasswordResetAsWritten | backend/src/main/java/com/sunbeam/service/impl/AuthServiceImpl.java:117-126 | as written: the deletion of an expired token is rolled back with the exception, so the token stays stored and keeps failing with TokenExpired |
| Auth.ResetPasswordLogsIn | backend/src/main/java/com/sunbeam/service/impl/AuthServiceImpl.java:128-131 | after a reset, the new password logs in to an enabled, unblocked account |
| Auth.VerifyEmail | backend/src/main/java/com/sunbeam/service/impl/AuthServiceImpl.java:135-150 | unknown token: InvalidToken; otherwise the owner is enabled and the token deleted, with no expiry or type check |
| Auth.VerificationUnlocksLogin | backend/src/main/java/com/sunbeam/service/impl/AuthServiceImpl.java:54-55 | a registered user's correct password gets AccountDisabled until the user is enabled, and logs in afterwards |
| LegacyAuth.CompletePasswordReset | govportal/src/main/java/com/sunbeam/service/impl/AuthServiceImpl.java:101-115 | unknown token: InvalidToken; expired: TokenExpired with nothing changed and the token kept; otherwise only the owner's password changes and the token is deleted |
| Config.ConfigValue | govportal/src/main/java/com/sunbeam/service/impl/SystemConfigServiceImpl.java:20-24 | present exactly when the key is stored with a non-null value, and then it is that value |
| Config.GetConfigValue | govportal/src/main/java/com/sunbeam/service/impl/SystemConfigServiceImpl.java:20-24 | reads the value and writes nothing |
| Config.UpdateConfig | govportal/src/main/java/com/sunbeam/service/impl/SystemConfigServiceImpl.java:26-33 | upsert: the key holds the new value; an absent key is added; no other key appears |
| Config.ReadYourWrite | govportal/src/main/java/com/sunbeam/service/impl/SystemConfigServiceImpl.java:27-32 | right after an update, reading the key yields the value written |
| Config.UpdateLeavesOthers | govportal/src/main/java/com/sunbeam/service/impl/SystemConfigServiceImpl.java:27-32 | an update leaves every other key's value unchanged |
| Config.UpdateIdempotent | govportal/src/main/java/com/sunbeam/service/impl/SystemConfigServiceImpl.java:27-32 | repeating an update yields the same store |
| Config.LastUpdateWins | govportal/src/main/java/com/sunbeam/service/impl/SystemConfigServiceImpl.java:27-32 | of two updates of one key, the later one is read back |
| Config.AllConfigs | govportal/src/main/java/com/sunbeam/service/impl/SystemConfigServiceImpl.java:35-44 | exactly the stored key/value pairs, or NullPointer exactly when some stored value is null |
| Config.AllConfigsAfterUpdate | govportal/src/main/java/com/sunbeam/service/impl/SystemConfigServiceImpl.java:36-43 | when no value is null, the full listing exists and shows the last update |

## Left out

- Certificate rendering (PDF layout, fonts) is a parameter returning bytes or a failure; no property of the bytes is modelled.
- File storage (object storage upload, local file copy, type detection) is a parameter saying whether each file was stored. The older copy's path normalisation of the upload directory is not modelled.
- E-mail sending after registration and password-reset initiation is not modelled.
- JWT generation, the authentication manager and the security configuration are not modelled. Login is modelled as a password match followed by the enabled and blocked checks. The framework's own pre-checks on enabled and locked accounts are not modelled, because the user-details class is not part of this model.
- Password hashing is an injective stand-in; salting and BCrypt are left out.
- The current user (`SecurityUtils.getCurrentUser`) is an explicit actor id that must be a stored user.
- Pagination and sort order of listings are left out; listings are maps keyed by id.
- The DTO mapping of applications (ModelMapper) is left out. Listings return the records.
- Created/updated timestamps maintained by JPA auditing are left out. So are the citizen profile fields (address, date of birth, gender, father's name).
- Null strings are not modelled (every text is a value), except for configuration values, and except for the optional status filter and Aadhaar number, which are `Option`s. `NullPointerException`s on null request fields are therefore not modelled.
- Database failures caught and rewrapped as DatabaseOperationException (listings, statistics, the newer submission's data-access catch) are not modelled. Only the not-found rewrap in `Documents.ApplicationById` is, because it follows from the code alone.
- Concurrency, lazy loading and the load-then-save race are left out; each call is one atomic step.
- Documents.Submit: IDENTITY counters (application id, proof id) are not rolled back. After a failed upload the counters have advanced, while the applications table is as before. The contract does not state how far they advanced.
- Documents.SubmitApplication: as for Documents.Submit, the counters after a failed upload are not stated.
- LegacyDocuments.SubmitApplication: as for Documents.Submit, the counters after a failed copy are not stated.
- Text.ToUpper: only the ASCII letters `a`-`z` are mapped. Java's locale-dependent `toUpperCase()` and its other mappings are not modelled: `ß` to `SS` (which changes the length), dotless `ı` to `I`, and the Turkish-locale `i` to `İ`. Domain.ParseDocumentType, Domain.ParseStatus, Domain.ParseDesignation and Admin.ApplicationsWithStatus therefore accept and reject exactly the inputs whose ASCII upper-casing names a constant.
- Auth.RegisterUser: an auto-increment value consumed by an insert that fails on a unique column (the Aadhaar number, or the token value) is not modelled. The user counter stays unchanged on every failure.
- Admin.CreateVerifierAccount: an auto-increment value consumed by an insert that fails on the Aadhaar number is not modelled. The user counter stays unchanged on every failure.
- The request DTOs in the repository lack some fields the newer services read (the verifier request's Aadhaar number, the user view's designation). The model follows the service code.
- The older `getDocumentApplicationDetails` (govportal/src/main/java/com/sunbeam/service/impl/DocumentServiceImpl.java:111-142) is not modelled. It differs from Documents.ApplicationDetails only in its view, which leaves the applicant's name and Aadhaar number unset. An unknown id fails with DocumentNotFound in both copies.
- Config.UpdateConfig, Config.GetConfigValue and Config.AllConfigs: the older `SystemConfig` entity (govportal/src/main/java/com/sunbeam/model/SystemConfig.java:6-11) declares only a one-argument constructor. JPA needs a no-argument constructor to build an entity from a row or to copy one in `merge`, so reading a stored key, saving, and listing a non-empty table would fail in the program. The model follows the service code as if the entity could be built.
- The admin's `getAllApplicationsOnDesk1` and `getAllApplicationsOnDesk2` (a filter by a desk string) are not modelled. Neither are the average-processing-time report (floating point) or the commented-out workflow service.

## Findings

| source | as written | input that shows it | evidently intended | confidence | as-written member | corrected member |
|---|---|---|---|---|---|---|
| govportal/src/main/java/com/sunbeam/service/impl/VerificationServiceImpl.java:69-74 | the desk is compared with `==`, which tests object identity of two strings | a junior approving an application loaded from the database with desk "DESK_1": the loaded string is never the literal, so no branch matches and the application stays on DESK_1 while approvedBy and resolvedDate are stamped and DOCUMENT_APPROVED is logged | compare by value (`equals`), as the newer copy does | high (not executed) | LegacyVerification.ApproveAsWritten, LegacyVerification.ApproveApplicationAsWritten | LegacyVerification.Approve, LegacyVerification.ApproveApplication |
| backend/src/main/java/com/sunbeam/service/impl/AuthServiceImpl.java:123-126 | the expired token is deleted and then an unchecked TokenExpiredException is thrown inside the same `@Transactional` method, which rolls the deletion back | completePasswordReset with a stored reset token whose expiry is before now: the token is still stored afterwards, and every retry fails with TokenExpired again | the expired token is removed | medium (not executed) | Auth.CompletePasswordResetAsWritten | Auth.CompletePasswordReset |
| govportal/backend/src/main/java/com/sunbeam/service/impl/VerificationServiceImpl.java:141-148 | on a rendering failure the PDF_GENERATION_FAILED record is written in the approval's transaction, and the RuntimeException thrown next rolls it back | a senior approving a DESK_2 application with a renderer that fails: the call fails and the audit log has no record of the failure | the failure record persists, and the approval itself is undone. The code throws right after logging, so the authors evidently meant the call to fail without keeping a half-approved application that has no certificate. What they evidently did not mean is to lose the record they had just written. | medium (not executed) | Verification.ApproveApplicationAsWritten | Verification.ApproveApplication |

=== FILE: admin.dfy ===
/**
  AdminServiceImpl, the newer copy: verifier accounts (create, delete, block),
  the system statistics, the application listing filtered by status, and the user
  view returned to the administrator.
*/
module Admin {
  import opened Common
  import opened Domain
  import opened Store
  import Text
  import Verification

  /** CreateVerifierRequest, with the fields the service reads. */
  datatype CreateVerifierRequest = CreateVerifierRequest(
    fullName: string, email: string, password: string, designation: string, aadharNumber: Option<string>)

  /** UserResponse: the view of a user handed to the administrator. */
  datatype UserResponse = UserResponse(
    id: UserId, fullName: string, email: string, role: Role, designation: Option<Designation>,
    blocked: bool, enabled: bool)

  /** mapToUserResponse: the full name is the first and last name joined by one space. */
  function MapToUserResponse(u: User): (r: UserResponse)
    ensures r.id == u.id && r.email == u.email && r.role == u.role
    ensures r.designation == u.designation && r.blocked == u.blocked && r.enabled == u.enabled
    ensures r.fullName == u.FullName()
  {
    UserResponse(u.id, u.firstName + " " + u.lastName, u.email, u.role, u.designation, u.blocked, u.enabled)
  }

  /**
    The verifier createVerifierAccount builds from a request, or the exception its
    builder throws: the designation is parsed case-insensitively (IllegalArgument
    otherwise), and the first and last names are the words at positions 0 and 1 of
    the full name split at spaces, so fewer than two words fail with IndexOutOfBounds.
  */
  function NewVerifier(id: UserId, request: CreateVerifierRequest): (r: Result<User>)
    ensures ParseDesignation(request.designation).Err? ==> r == Err(IllegalArgument)
    ensures ParseDesignation(request.designation).Ok? && |Text.Split(request.fullName)| < 2 ==>
      r == Err(IndexOutOfBounds)
    ensures r.Ok? ==>
      var parts := Text.Split(request.fullName);
      |parts| >= 2 && r.value.firstName == parts[0] && r.value.lastName == parts[1]
    ensures r.Ok? ==> r.value.id == id && r.value.role == Verifier && r.value.enabled && !r.value.blocked
    ensures r.Ok? ==> r.value.designation.Some? && r.value.designation.value.Name() == Text.ToUpper(request.designation)
    ensures r.Ok? ==> r.value.email == request.email && r.value.password == EncodePassword(request.password)
    ensures r.Ok? ==> r.value.aadharNumber == request.aadharNumber
  {
    var designation := ParseDesignation(request.designation);
    if designation.Err? then Err(IllegalArgument)
    else
      var parts := Text.Split(request.fullName);
      if |parts| < 2 then Err(IndexOutOfBounds)
      else Ok(User(id, parts[0], parts[1], request.email, EncodePassword(request.password),
                   Verifier, true, false, Some(designation.value), request.aadharNumber))
  }

  /**
    A two-word full name survives the round trip through the split and the
    response: the verifier's names are the two words and the response shows the
    name as given.
  */
  lemma NewVerifierNameRoundTrip(id: UserId, request: CreateVerifierRequest, first: string, last: string)
    requires first != "" && last != "" && ' ' !in first && ' ' !in last
    requires request.fullName == first + " " + last
    requires ParseDesignation(request.designation).Ok?
    ensures NewVerifier(id, request).Ok?
    ensures NewVerifier(id, request).value.firstName == first && NewVerifier(id, request).value.lastName == last
    ensures MapToUserResponse(NewVerifier(id, request).value).fullName == request.fullName
  {
    Text.SplitTwoWords(first, last);
  }

  /** A one-word full name (with a valid designation) makes the creation fail. */
  lemma OneWordNameFails(id: UserId, request: CreateVerifierRequest)
    requires ' ' !in request.fullName && ParseDesignation(request.designation).Ok?
    ensures NewVerifier(id, request) == Err(IndexOutOfBounds)
  {
  }

  /**
    createVerifierAccount: a registered email fails first; then the request is
    turned into a verifier; a duplicate Aadhaar number fails at the insert; otherwise
    the verifier is stored under the next user id.
  */
  method CreateVerifierAccount(db: Database, request: CreateVerifierRequest) returns (r: Result<UserResponse>)
    requires db.Valid()
    modifies db`users, db`nextUserId
    ensures db.Valid()
    ensures EmailTaken(old(db.users), request.email) ==>
      r == Err(EmailAlreadyExists) && db.users == old(db.users) && db.nextUserId == old(db.nextUserId)
    ensures (!EmailTaken(old(db.users), request.email) && NewVerifier(old(db.nextUserId), request).Err?) ==>
      r == Err(NewVerifier(old(db.nextUserId), request).error)
      && db.users == old(db.users) && db.nextUserId == old(db.nextUserId)
    ensures (!EmailTaken(old(db.users), request.email) && NewVerifier(old(db.nextUserId), request).Ok?
             && AadharTaken(old(db.users), request.aadharNumber)) ==>
      r == Err(DataIntegrityViolation) && db.users == old(db.users) && db.nextUserId == old(db.nextUserId)
    ensures (!EmailTaken(old(db.users), request.email) && NewVerifier(old(db.nextUserId), request).Ok?
             && !AadharTaken(old(db.users), request.aadharNumber)) ==>
      var v := NewVerifier(old(db.nextUserId), request).value;
      r == Ok(MapToUserResponse(v))
      && db.users == old(db.users)[v.id := v] && db.nextUserId == old(db.nextUserId) + 1
  {
    if EmailTaken(db.users, request.email) {
      return Err(EmailAlreadyExists);
    }
    var built := NewVerifier(db.nextUserId, request);
    if built.Err? {
      return Err(built.error);
    }
    if AadharTaken(db.users, request.aadharNumber) {
      return Err(DataIntegrityViolation);
    }
    var verifier := built.value;
    UsersGrow(db.applications, db.tokens, db.auditLog, db.users, db.users[verifier.id := verifier], db.nextApplicationId);
    db.users := db.users[verifier.id := verifier];
    db.nextUserId := db.nextUserId + 1;
    r := Ok(MapToUserResponse(verifier));
  }

  /**
    deleteVerifierAccount: an unknown id fails with UserNotFound and a user who is
    not a verifier with IllegalArgument. A verifier that some application, token or
    audit record still points at cannot be deleted (the foreign key refuses it);
    otherwise exactly that user is removed.
  */
  method DeleteVerifierAccount(db: Database, id: UserId) returns (r: Result<()>)
    requires db.Valid()
    modifies db`users
    ensures db.Valid()
    ensures id !in old(db.users) ==> r == Err(UserNotFound) && db.users == old(db.users)
    ensures (id in old(db.users) && old(db.users)[id].role != Verifier) ==>
      r == Err(IllegalArgument) && db.users == old(db.users)
    ensures (id in old(db.users) && old(db.users)[id].role == Verifier
             && Referenced(db.applications, db.tokens, db.auditLog, id)) ==>
      r == Err(DataIntegrityViolation) && db.users == old(db.users)
    ensures (id in old(db.users) && old(db.users)[id].role == Verifier
             && !Referenced(db.applications, db.tokens, db.auditLog, id)) ==>
      r == Ok(()) && db.users == old(db.users) - {id}
  {
    if id !in db.users {
      return Err(UserNotFound);
    }
    if db.users[id].role != Verifier {
      return Err(IllegalArgument);
    }
    if Referenced(db.applications, db.tokens, db.auditLog, id) {
      return Err(DataIntegrityViolation);
    }
    RemoveUnreferenced(db.applications, db.tokens, db.auditLog, db.users, db.nextApplicationId, id);
    db.users := db.users - {id};
    r := Ok(());
  }

  /** The user table with user `id`'s blocked flag set to `block`. */
  function SetBlocked(users: map<UserId, User>, id: UserId, block: bool): (r: map<UserId, User>)
    requires id in users
    ensures r.Keys == users.Keys
    ensures r[id].blocked == block
    ensures r[id] == users[id].(blocked := block)
    ensures forall other :: other in users && other != id ==> r[other] == users[other]
  {
    users[id := users[id].(blocked := block)]
  }

  /** Setting the flag twice to the same value is the same as setting it once. */
  lemma SetBlockedIdempotent(users: map<UserId, User>, id: UserId, block: bool)
    requires id in users
    ensures SetBlocked(SetBlocked(users, id, block), id, block) == SetBlocked(users, id, block)
  {
  }

  /** Blocking and then unblocking restores an unblocked user exactly. */
  lemma BlockThenUnblock(users: map<UserId, User>, id: UserId)
    requires id in users && !users[id].blocked
    ensures SetBlocked(SetBlocked(users, id, true), id, false) == users
  {
  }

  /**
    toggleUserBlockStatus: an unknown id fails with UserNotFound; otherwise the
    blocked flag becomes `block` and nothing else changes.
  */
  method ToggleUserBlockStatus(db: Database, id: UserId, block: bool) returns (r: Result<UserResponse>)
    requires db.Valid()
    modifies db`users
    ensures db.Valid()
    ensures id !in old(db.users) ==> r == Err(UserNotFound) && db.users == old(db.users)
    ensures id in old(db.users) ==>
      db.users == SetBlocked(old(db.users), id, block) && r == Ok(MapToUserResponse(db.users[id]))
  {
    if id !in db.users {
      return Err(UserNotFound);
    }
    UsersGrow(db.applications, db.tokens, db.auditLog, db.users, SetBlocked(db.users, id, block), db.nextApplicationId);
    db.users := SetBlocked(db.users, id, block);
    r := Ok(MapToUserResponse(db.users[id]));
  }

  // ---------------------------------------------------------------------------
  // Statistics and listings (read-only)
  // ---------------------------------------------------------------------------

  /** The ids of the users with role `role`. */
  function WithRole(users: map<UserId, User>, role: Role): set<UserId>
  {
    set id | id in users && users[id].role == role
  }

  /** The ids of the enabled verifiers. */
  function ActiveVerifiers(users: map<UserId, User>): set<UserId>
  {
    set id | id in users && users[id].role == Verifier && users[id].enabled
  }

  /** The ids of the blocked users, whatever their role. */
  function BlockedUsers(users: map<UserId, User>): set<UserId>
  {
    set id | id in users && users[id].blocked
  }

  /** AdminStatsResponse. */
  datatype AdminStats = AdminStats(
    totalCitizens: nat, activeVerifiers: nat, pendingApplications: nat, approvedApplications: nat,
    blockedAccounts: nat)

  /**
    getSystemStatistics: citizens, enabled verifiers, PENDING and APPROVED
    applications, and blocked accounts of any role.
  */
  function SystemStatistics(users: map<UserId, User>, apps: map<AppId, Application>): (s: AdminStats)
    ensures s.totalCitizens + s.activeVerifiers <= |users|
    ensures s.activeVerifiers <= |WithRole(users, Verifier)|
    ensures s.blockedAccounts <= |users|
    ensures s.pendingApplications == Verification.StatsOf(apps).pending
    ensures s.approvedApplications == Verification.StatsOf(apps).approved
  {
    RoleCountsBounded(users);
    Verification.SubsetSize(BlockedUsers(users), users.Keys);
    AdminStats(|WithRole(users, Citizen)|, |ActiveVerifiers(users)|,
               |Verification.WithStatus(apps, Pending)|, |Verification.WithStatus(apps, Approved)|,
               |BlockedUsers(users)|)
  }

  lemma RoleCountsBounded(users: map<UserId, User>)
    ensures |WithRole(users, Citizen)| + |ActiveVerifiers(users)| <= |users|
    ensures |ActiveVerifiers(users)| <= |WithRole(users, Verifier)|
  {
    Verification.SubsetSize(ActiveVerifiers(users), WithRole(users, Verifier));
    Verification.DisjointUnion(WithRole(users, Citizen), ActiveVerifiers(users));
    Verification.SubsetSize(WithRole(users, Citizen) + ActiveVerifiers(users), users.Keys);
  }

  /** getSystemStatistics reads the tables and writes nothing. */
  method GetSystemStatistics(db: Database) returns (s: AdminStats)
    ensures s == SystemStatistics(db.users, db.applications)
  {
    s := SystemStatistics(db.users, db.applications);
  }

  /**
    Blocking an unblocked user raises the blocked count by one and leaves every
    other count as it was.
  */
  lemma BlockingCounts(users: map<UserId, User>, apps: map<AppId, Application>, id: UserId)
    requires id in users && !users[id].blocked
    ensures var before := SystemStatistics(users, apps);
      var after := SystemStatistics(SetBlocked(users, id, true), apps);
      after == before.(blockedAccounts := before.blockedAccounts + 1)
  {
    var users' := SetBlocked(users, id, true);
    assert BlockedUsers(users') == BlockedUsers(users) + {id};
    assert WithRole(users', Citizen) == WithRole(users, Citizen);
    assert ActiveVerifiers(users') == ActiveVerifiers(users);
  }

  /**
    getAllVerifiers and getAllCitizens: the view of every user with the given role.
  */
  function UsersWithRole(users: map<UserId, User>, role: Role): (r: map<UserId, UserResponse>)
    ensures r.Keys == WithRole(users, role)
    ensures forall id :: id in r ==> r[id].role == role && r[id].id == users[id].id
  {
    map id | id in WithRole(users, role) :: MapToUserResponse(users[id])
  }

  /** The citizen listing has exactly as many entries as the statistics count citizens. */
  lemma CitizenListingMatchesStatistics(users: map<UserId, User>, apps: map<AppId, Application>)
    requires forall id :: id in users ==> users[id].id == id
    ensures |UsersWithRole(users, Citizen)| == SystemStatistics(users, apps).totalCitizens
  {
    assert UsersWithRole(users, Citizen).Keys == WithRole(users, Citizen);
  }

  /**
    A newly created verifier appears in the verifier listing and, being enabled,
    raises the active-verifier count by one.
  */
  lemma CreatedVerifierCounts(users: map<UserId, User>, apps: map<AppId, Application>,
                              id: UserId, request: CreateVerifierRequest)
    requires id !in users && NewVerifier(id, request).Ok?
    ensures var users' := users[id := NewVerifier(id, request).value];
      id in UsersWithRole(users', Verifier)
      && SystemStatistics(users', apps).activeVerifiers == SystemStatistics(users, apps).activeVerifiers + 1
      && SystemStatistics(users', apps).totalCitizens == SystemStatistics(users, apps).totalCitizens
  {
    var users' := users[id := NewVerifier(id, request).value];
    assert ActiveVerifiers(users') == ActiveVerifiers(users) + {id};
    assert WithRole(users', Citizen) == WithRole(users, Citizen);
  }

  /**
    getAllApplicationsWithStatus: an absent or empty status lists every
    application; otherwise the status is named case-insensitively and an unknown
    name fails with IllegalArgument.
  */
  function ApplicationsWithStatus(apps: map<AppId, Application>, status: Option<string>)
    : (r: Result<map<AppId, Application>>)
    ensures (status.None? || status == Some("")) ==> r == Ok(apps)
    ensures r.Err? ==> r.error == IllegalArgument
    ensures (status.Some? && status.value != "") ==> (r.Err? <==> ParseStatus(status.value).Err?)
    ensures r.Ok? ==> forall id :: id in r.value ==> id in apps && r.value[id] == apps[id]
    ensures (status.Some? && status.value != "" && r.Ok?) ==>
      forall id :: id in apps ==> (id in r.value <==> apps[id].status.Name() == Text.ToUpper(status.value))
  {
    if status.None? || status.value == "" then Ok(apps)
    else
      match ParseStatus(status.value)
      case Err(_) => Err(IllegalArgument)
      case Ok(s) => Ok(map id | id in apps && apps[id].status == s :: apps[id])
  }

  /** Filtering by a status's own name lists exactly the applications with that status. */
  lemma ApplicationsWithStatusName(apps: map<AppId, Application>, s: ApplicationStatus)
    ensures ApplicationsWithStatus(apps, Some(s.Name())).Ok?
    ensures ApplicationsWithStatus(apps, Some(s.Name())).value.Keys == Verification.WithStatus(apps, s)
  {
    ParseStatusName(s);
  }
}

=== FILE: audit.dfy ===
/**
  AuditServiceImpl: an append-only log of who did what. Every record carries the
  current user, an action name, a free-text detail and the time of the call.
*/
module Audit {
  import opened Common
  import opened Domain
  import opened Store
  import Text

  /** logActivity: appends one record for the current user and leaves the earlier records as they were. */
  method LogActivity(db: Database, actor: UserId, action: string, details: string, now: Time)
    requires db.Valid() && actor in db.users
    modifies db`auditLog
    ensures db.auditLog == old(db.auditLog) + [AuditRecord(actor, action, details, now)]
    ensures db.Valid()
  {
    db.auditLog := db.auditLog + [AuditRecord(actor, action, details, now)];
  }

  /** The action name logDocumentStatusChange records for a status change named `action`. */
  function StatusChangeAction(action: string): string
  {
    "DOCUMENT_" + action
  }

  /** The detail text logDocumentStatusChange records. */
  function StatusChangeDetails(documentId: AppId, action: string, remarks: string): string
  {
    "Document ID: " + Text.Decimal(documentId) + " | Action: " + action + " | Remarks: " + remarks
  }

  /** logDocumentStatusChange: one record whose action and detail are the two texts above. */
  method LogDocumentStatusChange(db: Database, actor: UserId, documentId: AppId, action: string,
                                 remarks: string, now: Time)
    requires db.Valid() && actor in db.users
    modifies db`auditLog
    ensures db.auditLog ==
      old(db.auditLog) + [AuditRecord(actor, StatusChangeAction(action), StatusChangeDetails(documentId, action, remarks), now)]
    ensures db.Valid()
  {
    LogActivity(db, actor, StatusChangeAction(action), StatusChangeDetails(documentId, action, remarks), now);
  }

  const DocumentIdLabel: string := "Document ID: "

  /** Reads the document id back out of a status-change detail text. */
  function DocumentIdOf(details: string): (r: Option<AppId>)
    ensures r.Some? ==> |DocumentIdLabel| < |details| && details[..|DocumentIdLabel|] == DocumentIdLabel
  {
    var n := |DocumentIdLabel|;
    if |details| < n || details[..n] != DocumentIdLabel then None
    else
      var digits := Text.LeadingDigits(details[n..]);
      if digits == [] then None else Some(Text.DigitsValue(digits))
  }

  /** The detail text of a status change names its document: the id reads back unchanged. */
  lemma DocumentIdOfStatusChange(documentId: AppId, action: string, remarks: string)
    ensures DocumentIdOf(StatusChangeDetails(documentId, action, remarks)) == Some(documentId)
  {
    var digits := Text.Decimal(documentId);
    var rest := " | Action: " + action + " | Remarks: " + remarks;
    var details := StatusChangeDetails(documentId, action, remarks);
    assert details == DocumentIdLabel + (digits + rest);
    assert details[..|DocumentIdLabel|] == DocumentIdLabel;
    assert details[|DocumentIdLabel|..] == digits + rest;
    Text.LeadingDigitsOf(digits, rest);
    Text.DecimalRoundTrip(documentId);
  }

  /** The records of one user, in log order (AuditLogRepository.findByUserId). */
  function UserRecords(log: seq<AuditRecord>, user: UserId): (r: seq<AuditRecord>)
    ensures |r| <= |log|
    ensures forall i :: 0 <= i < |r| ==> r[i].userId == user && r[i] in log
    ensures forall i :: 0 <= i < |log| && log[i].userId == user ==> log[i] in r
  {
    if log == [] then []
    else
      var last := log[|log| - 1];
      UserRecords(log[..|log| - 1], user) + (if last.userId == user then [last] else [])
  }

  /** A record appended for one user leaves every other user's view of the log unchanged. */
  lemma {:induction false} UserRecordsAppendOther(log: seq<AuditRecord>, rec: AuditRecord, user: UserId)
    requires rec.userId != user
    ensures UserRecords(log + [rec], user) == UserRecords(log, user)
  {
    assert (log + [rec])[..|log|] == log;
  }

  /** A record appended for a user shows up last in that user's view. */
  lemma {:induction false} UserRecordsAppendOwn(log: seq<AuditRecord>, rec: AuditRecord)
    ensures UserRecords(log + [rec], rec.userId) == UserRecords(log, rec.userId) + [rec]
  {
    assert (log + [rec])[..|log|] == log;
  }

  /** getAuditLogs: every record, in order; nothing is written. */
  method GetAuditLogs(db: Database) returns (r: seq<AuditRecord>)
    ensures r == db.auditLog
  {
    r := db.auditLog;
  }

  /** getUserAuditLogs: exactly the records of that user; nothing is written. */
  method GetUserAuditLogs(db: Database, user: UserId) returns (r: seq<AuditRecord>)
    ensures r == UserRecords(db.auditLog, user)
  {
    r := UserRecords(db.auditLog, user);
  }
}

=== FILE: auth.dfy ===
/**
  AuthServiceImpl (the copy under backend/): registration, the account checks at
  login, and the password-reset and e-mail-verification flows over the user and
  token tables. The older copy's registerUser, authenticateUser,
  initiatePasswordReset and verifyEmail are the same code and are modelled here
  once; its completePasswordReset differs and is in module LegacyAuth.
*/
module Auth {
  import opened Common
  import opened Domain
  import opened Store
  import Tokens
  import Admin

  /** RegisterRequest, with the fields mapped onto the user (the postal address is left out). */
  datatype RegisterRequest = RegisterRequest(
    firstName: string, lastName: string, email: string, password: string, aadharNumber: string)

  /** The user registerUser stores: a disabled CITIZEN with the request's names, email and Aadhaar number. */
  function RegisteredUser(id: UserId, request: RegisterRequest): (u: User)
    ensures u.id == id && u.role == Citizen && !u.enabled && !u.blocked && u.designation == None
    ensures u.firstName == request.firstName && u.lastName == request.lastName
    ensures u.email == request.email && u.password == EncodePassword(request.password)
    ensures u.aadharNumber == Some(request.aadharNumber)
  {
    NewUser(id, request.firstName, request.lastName, request.email, EncodePassword(request.password),
            Some(request.aadharNumber))
  }

  /**
    registerUser: a registered email fails with EmailAlreadyExists. Otherwise the
    user and one verification token (value `uuid`) are stored together; a clash on
    a unique column (Aadhaar number, token value) fails with DataIntegrityViolation
    and stores neither.
  */
  method RegisterUser(db: Database, request: RegisterRequest, uuid: string, now: Time) returns (r: Result<User>)
    requires db.Valid()
    modifies db`users, db`nextUserId, db`tokens
    ensures db.Valid()
    ensures EmailTaken(old(db.users), request.email) ==>
      r == Err(EmailAlreadyExists)
      && db.users == old(db.users) && db.nextUserId == old(db.nextUserId) && db.tokens == old(db.tokens)
    ensures (!EmailTaken(old(db.users), request.email)
             && (AadharTaken(old(db.users), Some(request.aadharNumber)) || uuid in old(db.tokens))) ==>
      r == Err(DataIntegrityViolation)
      && db.users == old(db.users) && db.nextUserId == old(db.nextUserId) && db.tokens == old(db.tokens)
    ensures (!EmailTaken(old(db.users), request.email)
             && !AadharTaken(old(db.users), Some(request.aadharNumber)) && uuid !in old(db.tokens)) ==>
      var u := RegisteredUser(old(db.nextUserId), request);
      r == Ok(u)
      && db.users == old(db.users)[u.id := u] && db.nextUserId == old(db.nextUserId) + 1
      && db.tokens == old(db.tokens)[uuid := Tokens.VerificationToken(uuid, u.id, now)]
  {
    if EmailTaken(db.users, request.email) {
      return Err(EmailAlreadyExists);
    }
    if AadharTaken(db.users, Some(request.aadharNumber)) || uuid in db.tokens {
      return Err(DataIntegrityViolation);
    }
    var user := RegisteredUser(db.nextUserId, request);
    UsersGrow(db.applications, db.tokens, db.auditLog, db.users, db.users[user.id := user], db.nextApplicationId);
    db.users := db.users[user.id := user];
    db.nextUserId := db.nextUserId + 1;
    var saved := Tokens.CreateVerificationToken(db, user.id, uuid, now);
    r := Ok(user);
  }

  /** The account accepts this password: it matches, the account is enabled and it is not blocked. */
  predicate Admits(u: User, password: string)
  {
    u.password == EncodePassword(password) && u.enabled && !u.blocked
  }

  /**
    authenticateUser: unknown email or wrong password fail with BadCredentials;
    then a disabled account fails with AccountDisabled before a blocked one fails
    with AccountBlocked.
  */
  function AuthenticateUser(users: map<UserId, User>, email: string, password: string): (r: Result<User>)
    requires EmailsUnique(users)
    ensures r.Ok? <==> exists id :: id in users && users[id].email == email && Admits(users[id], password)
    ensures r.Ok? ==> r.value in users.Values && r.value.email == email
    ensures r.Err? ==> r.error in {BadCredentials, AccountDisabled, AccountBlocked}
  {
    match FindByEmail(users, email)
    case None => Err(BadCredentials)
    case Some(id) =>
      var u := users[id];
      if u.password != EncodePassword(password) then Err(BadCredentials)
      else if !u.enabled then Err(AccountDisabled)
      else if u.blocked then Err(AccountBlocked)
      else Ok(u)
  }

  /** The disabled check precedes the blocked check: a disabled and blocked account is reported as disabled. */
  lemma DisabledBeforeBlocked(users: map<UserId, User>, id: UserId, password: string)
    requires EmailsUnique(users) && id in users
    requires users[id].password == EncodePassword(password) && !users[id].enabled
    ensures AuthenticateUser(users, users[id].email, password) == Err(AccountDisabled)
  {
  }

  /** Blocking an enabled user makes their correct password fail with AccountBlocked. */
  lemma BlockedUserCannotLogIn(users: map<UserId, User>, id: UserId, password: string)
    requires EmailsUnique(users) && id in users
    requires users[id].password == EncodePassword(password) && users[id].enabled
    ensures EmailsUnique(Admin.SetBlocked(users, id, true))
    ensures AuthenticateUser(Admin.SetBlocked(users, id, true), users[id].email, password) == Err(AccountBlocked)
  {
    var users' := Admin.SetBlocked(users, id, true);
    assert users'[id].email == users[id].email;
  }

  /**
    initiatePasswordReset: an unknown email fails with UserNotFound and creates no
    token; otherwise one reset token (value `uuid`) is issued for that user.
  */
  method InitiatePasswordReset(db: Database, email: string, uuid: string, now: Time) returns (r: Result<Token>)
    requires db.Valid()
    modifies db`tokens
    ensures db.Valid()
    ensures FindByEmail(db.users, email).None? ==> r == Err(UserNotFound) && db.tokens == old(db.tokens)
    ensures FindByEmail(db.users, email).Some? && uuid in old(db.tokens) ==>
      r == Err(DataIntegrityViolation) && db.tokens == old(db.tokens)
    ensures FindByEmail(db.users, email).Some? && uuid !in old(db.tokens) ==>
      var t := Tokens.ResetToken(uuid, FindByEmail(db.users, email).value, now);
      r == Ok(t) && db.tokens == old(db.tokens)[uuid := t]
  {
    var found := FindByEmail(db.users, email);
    if found.None? {
      return Err(UserNotFound);
    }
    r := Tokens.CreatePasswordResetToken(db, found.value, uuid, now);
  }

  /**
    completePasswordReset, with the deletion of an expired token kept: an unknown
    token fails with InvalidToken; an expired one is deleted and fails with
    TokenExpired, the password untouched; otherwise the owner's password becomes
    the encoded new one and the token is deleted. The token's type is not checked.
    Whatever happens, the token cannot be used again.
  */
  method CompletePasswordReset(db: Database, value: string, newPassword: string, now: Time) returns (r: Result<()>)
    requires db.Valid()
    modifies db`users, db`tokens
    ensures db.Valid()
    ensures value !in db.tokens
    ensures value !in old(db.tokens) ==>
      r == Err(InvalidToken) && db.users == old(db.users) && db.tokens == old(db.tokens)
    ensures (value in old(db.tokens) && Tokens.Expired(old(db.tokens)[value], now)) ==>
      r == Err(TokenExpired) && db.users == old(db.users) && db.tokens == old(db.tokens) - {value}
    ensures (value in old(db.tokens) && !Tokens.Expired(old(db.tokens)[value], now)) ==>
      var owner := old(db.tokens)[value].userId;
      r == Ok(())
      && db.users == old(db.users)[owner := old(db.users)[owner].(password := EncodePassword(newPassword))]
      && db.tokens == old(db.tokens) - {value}
  {
    if value !in db.tokens {
      return Err(InvalidToken);
    }
    var token := db.tokens[value];
    if Tokens.Expired(token, now) {
      db.tokens := db.tokens - {value};
      return Err(TokenExpired);
    }
    var user := db.users[token.userId].(password := EncodePassword(newPassword));
    ReplaceUser(db.applications, db.tokens, db.auditLog, db.users, db.nextApplicationId, db.nextUserId, user);
    db.users := db.users[user.id := user];
    db.tokens := db.tokens - {value};
    r := Ok(());
  }

  /**
    completePasswordReset as written: the deletion of the expired token and the
    TokenExpired exception happen in one transaction, and the unchecked exception
    rolls the deletion back. The expired token therefore stays stored, and every
    later attempt with it fails with TokenExpired again.
  */
  method CompletePasswordResetAsWritten(db: Database, value: string, newPassword: string, now: Time)
    returns (r: Result<()>)
    requires db.Valid()
    modifies db`users, db`tokens
    ensures db.Valid()
    ensures r == Err(TokenExpired) ==>
      db.tokens == old(db.tokens) && value in db.tokens && Tokens.Expired(db.tokens[value], now)
    ensures r == Err(TokenExpired) ==> db.users == old(db.users)
    ensures (value in old(db.tokens) && Tokens.Expired(old(db.tokens)[value], now)) ==> r == Err(TokenExpired)
    ensures r != Err(TokenExpired) ==> value !in db.tokens
  {
    var before := db.tokens;
    r := CompletePasswordReset(db, value, newPassword, now);
    if r == Err(TokenExpired) {
      db.tokens := before;
    }
  }

  /** After a successful reset the new password logs in, provided the account is enabled and not blocked. */
  lemma ResetPasswordLogsIn(users: map<UserId, User>, id: UserId, newPassword: string)
    requires EmailsUnique(users) && id in users && users[id].enabled && !users[id].blocked
    ensures var users' := users[id := users[id].(password := EncodePassword(newPassword))];
      EmailsUnique(users') && AuthenticateUser(users', users[id].email, newPassword).Ok?
  {
    var users' := users[id := users[id].(password := EncodePassword(newPassword))];
    assert users'[id].email == users[id].email;
  }

  /**
    verifyEmail: an unknown token fails with InvalidToken; otherwise its owner is
    enabled and the token deleted. Neither the expiry nor the type is checked.
  */
  method VerifyEmail(db: Database, value: string) returns (r: Result<()>)
    requires db.Valid()
    modifies db`users, db`tokens
    ensures db.Valid()
    ensures value !in db.tokens
    ensures value !in old(db.tokens) ==>
      r == Err(InvalidToken) && db.users == old(db.users) && db.tokens == old(db.tokens)
    ensures value in old(db.tokens) ==>
      var owner := old(db.tokens)[value].userId;
      r == Ok(())
      && db.users == old(db.users)[owner := old(db.users)[owner].(enabled := true)]
      && db.tokens == old(db.tokens) - {value}
  {
    if value !in db.tokens {
      return Err(InvalidToken);
    }
    var token := db.tokens[value];
    var user := db.users[token.userId].(enabled := true);
    ReplaceUser(db.applications, db.tokens, db.auditLog, db.users, db.nextApplicationId, db.nextUserId, user);
    db.users := db.users[user.id := user];
    db.tokens := db.tokens - {value};
    r := Ok(());
  }

  /**
    A registered user cannot log in until verified: with the right password they
    get AccountDisabled; once verifyEmail has enabled them, the same password logs in.
  */
  lemma VerificationUnlocksLogin(users: map<UserId, User>, id: UserId, request: RegisterRequest)
    requires EmailsUnique(users) && id !in users && !EmailTaken(users, request.email)
    ensures var users' := users[id := RegisteredUser(id, request)];
      EmailsUnique(users')
      && AuthenticateUser(users', request.email, request.password) == Err(AccountDisabled)
    ensures var users'' := users[id := RegisteredUser(id, request).(enabled := true)];
      EmailsUnique(users'')
      && AuthenticateUser(users'', request.email, request.password).Ok?
  {
    var users' := users[id := RegisteredUser(id, request)];
    var users'' := users[id := RegisteredUser(id, request).(enabled := true)];
    assert forall k :: k in users && k != id ==> users'[k] == users[k] && users''[k] == users[k];
    assert users'[id].email == request.email && users''[id].email == request.email;
  }
}

=== FILE: common.dfy ===
/** Option, Result and the exception kinds raised by the portal's services. */
module Common {

  /** Stands for a Java reference that may be null, or an `Optional`. */
  datatype Option<+T> = None | Some(value: T)

  /** One constructor per exception class the modelled services throw. */
  datatype Error =
    | ResourceNotFound              // ResourceNotFoundException
    | DocumentNotFound              // DocumentNotFoundEception (sic)
    | DatabaseOperation             // DatabaseOperationException
    | FileStorage                   // FileStorageException
    | InvalidDocumentType           // InvalidDocumentTypeException
    | IllegalState                  // IllegalStateException
    | IllegalArgument               // IllegalArgumentException, also from Enum.valueOf
    | UnsupportedOperation          // UnsupportedOperationException
    | EmailAlreadyExists            // EmailAlreadyExistsException
    | UserNotFound                  // UserNotFoundException
    | BadCredentials                // BadCredentialsException
    | AccountDisabled               // AccountDisabledException
    | AccountBlocked                // AccountBlockedException
    | InvalidToken                  // InvalidTokenException
    | TokenExpired                  // TokenExpiredException
    | CertificateGenerationFailed   // RuntimeException("Failed to generate certificate PDF")
    | IndexOutOfBounds              // ArrayIndexOutOfBoundsException from split(" ")[i]
    | DataIntegrityViolation        // a unique or foreign-key constraint of the database
    | NullPointer                   // NullPointerException

  /** The outcome of a service call: a value, or the exception it throws. */
  datatype Result<+T> = Ok(value: T) | Err(error: Error)
}

=== FILE: config.dfy ===
/**
  SystemConfigServiceImpl: a key/value store of system settings. A stored value
  may be null (None); the key is the row's primary key.
*/
module Config {
  import opened Common
  import opened Store

  /** The value stored under `key`; absent when the key is missing or its value is null. */
  function ConfigValue(configs: map<string, Option<string>>, key: string): (r: Option<string>)
    ensures r.Some? <==> key in configs && configs[key].Some?
    ensures r.Some? ==> configs[key] == r
  {
    if key in configs then configs[key] else None
  }

  /** getConfigValue reads the store and writes nothing. */
  method GetConfigValue(db: Database, key: string) returns (r: Option<string>)
    ensures r == ConfigValue(db.configs, key)
  {
    r := ConfigValue(db.configs, key);
  }

  /**
    updateConfig: the row under `key` is loaded or created, given `value`, and
    saved; an absent key gains a row, a present one is overwritten.
  */
  method UpdateConfig(db: Database, key: string, value: Option<string>)
    modifies db`configs
    ensures db.configs == old(db.configs)[key := value]
    ensures db.configs.Keys == old(db.configs).Keys + {key}
  {
    db.configs := db.configs[key := value];
  }

  /** Reading a key right after updating it yields the value written. */
  lemma ReadYourWrite(configs: map<string, Option<string>>, key: string, value: Option<string>)
    ensures ConfigValue(configs[key := value], key) == value
  {
  }

  /** Updating one key leaves the value of every other key as it was. */
  lemma UpdateLeavesOthers(configs: map<string, Option<string>>, key: string, value: Option<string>, other: string)
    requires other != key
    ensures ConfigValue(configs[key := value], other) == ConfigValue(configs, other)
  {
  }

  /** Repeating an update changes nothing further. */
  lemma UpdateIdempotent(configs: map<string, Option<string>>, key: string, value: Option<string>)
    ensures configs[key := value][key := value] == configs[key := value]
  {
  }

  /** The later of two updates of the same key wins. */
  lemma LastUpdateWins(configs: map<string, Option<string>>, key: string, first: Option<string>, second: Option<string>)
    ensures ConfigValue(configs[key := first][key := second], key) == second
  {
  }

  /**
    getAllConfigs: every stored pair, collected into a map; a null value makes the
    collector throw a NullPointerException.
  */
  function AllConfigs(configs: map<string, Option<string>>): (r: Result<map<string, string>>)
    ensures r.Err? <==> exists k :: k in configs && configs[k].None?
    ensures r.Err? ==> r.error == NullPointer
    ensures r.Ok? ==> r.value.Keys == configs.Keys
    ensures r.Ok? ==> forall k :: k in r.value ==> ConfigValue(configs, k) == Some(r.value[k])
  {
    if exists k :: k in configs && configs[k].None? then Err(NullPointer)
    else Ok(map k | k in configs :: configs[k].value)
  }

  /** Once every key holds a value, the full listing is available and includes the last update. */
  lemma AllConfigsAfterUpdate(configs: map<string, Option<string>>, key: string, value: string)
    requires forall k :: k in configs ==> configs[k].Some?
    ensures AllConfigs(configs[key := Some(value)]).Ok?
    ensures AllConfigs(configs[key := Some(value)]).value[key] == value
  {
    var updated := configs[key := Some(value)];
    assert forall k :: k in updated ==> updated[k].Some?;
  }
}

=== FILE: documents.dfy ===
/**
  DocumentServiceImpl (the newer copy): submitting an application with its
  uploaded proofs, and the lookups citizens and verifiers use. Uploading to object
  storage is a parameter that says, per object name, whether the upload succeeded;
  the random UUIDs are a parameter too.
*/
module Documents {
  import opened Common
  import opened Domain
  import opened Store
  import Text

  /** DocumentApplicationRequest: the type is still text, as the client sent it. */
  datatype ApplicationRequest = ApplicationRequest(documentType: string, purpose: string, formData: string)

  /** One uploaded file (MultipartFile): its original name and content type. */
  datatype Upload = Upload(originalFilename: string, contentType: string)

  /** The stored file name: the UUID, an underscore, then the original name. */
  function StoredFileName(uuid: string, originalFilename: string): string
  {
    uuid + "_" + originalFilename
  }

  /** The object name in the bucket: the stored file name under the "documents/" prefix. */
  function ObjectName(fileName: string): string
  {
    "documents/" + fileName
  }

  /**
    Recovers the UUID and the original name from an object name; a UUID has no
    underscore, so the first one after the prefix separates the two.
  */
  function SplitObjectName(objectName: string): (r: Option<(string, string)>)
    ensures r.Some? ==> ObjectName(StoredFileName(r.value.0, r.value.1)) == objectName
  {
    var prefix := "documents/";
    if |objectName| < |prefix| || objectName[..|prefix|] != prefix then None
    else
      match Text.CutAtFirst(objectName[|prefix|..], '_')
      case None => None
      case Some(parts) =>
        assert objectName == prefix + objectName[|prefix|..];
        Some(parts)
  }

  /** The object name keeps both the UUID and the original name: they read back unchanged. */
  lemma ObjectNameRoundTrip(uuid: string, originalFilename: string)
    requires '_' !in uuid
    ensures SplitObjectName(ObjectName(StoredFileName(uuid, originalFilename))) == Some((uuid, originalFilename))
  {
    var name := ObjectName(StoredFileName(uuid, originalFilename));
    assert name[|"documents/"|..] == uuid + ['_'] + originalFilename;
    Text.CutAtFirstJoin(uuid, '_', originalFilename);
  }

  /** The proof row saved for the i-th upload: original name, storage location, content type. */
  function ProofFor(id: nat, file: Upload, location: string): DocumentProof
  {
    DocumentProof(id, file.originalFilename, location, file.contentType)
  }

  /**
    The proofs a submission stores: one per upload, in upload order, numbered from
    `firstId`, each at the location `place` gives its stored file name.
  */
  function ExpectedProofs(firstId: nat, files: seq<Upload>, uuids: seq<string>, place: string -> string)
    : (r: seq<DocumentProof>)
    requires |uuids| == |files|
    ensures |r| == |files|
    ensures forall i :: 0 <= i < |r| ==>
      r[i] == ProofFor(firstId + i, files[i], place(StoredFileName(uuids[i], files[i].originalFilename)))
    ensures forall i :: 0 <= i < |r| ==>
      r[i].id == firstId + i && r[i].fileName == files[i].originalFilename
      && r[i].contentType == files[i].contentType
      && r[i].filePath == place(StoredFileName(uuids[i], files[i].originalFilename))
  {
    seq(|files|, i requires 0 <= i < |files| =>
      ProofFor(firstId + i, files[i], place(StoredFileName(uuids[i], files[i].originalFilename))))
  }

  /** Every upload of the submission succeeds. */
  predicate AllStored(files: seq<Upload>, uuids: seq<string>, place: string -> string, put: string -> bool)
    requires |uuids| == |files|
  {
    forall i :: 0 <= i < |files| ==> put(place(StoredFileName(uuids[i], files[i].originalFilename)))
  }

  /**
    The application the builder creates: the request's purpose and form, PENDING
    on DESK_1, submitted now, with nothing decided yet and no proofs.
  */
  function NewApplication(id: AppId, applicantId: UserId, documentType: DocumentType,
                          request: ApplicationRequest, now: Time): (a: Application)
    ensures a.id == id && a.applicantId == applicantId && a.documentType == documentType
    ensures a.purpose == request.purpose && a.formData == request.formData && a.submissionDate == now
    ensures a.status == Pending && a.desk == Desk1 && a.Consistent()
    ensures a.rejectionReason.None? && a.approvedBy.None? && a.resolvedDate.None?
    ensures a.certificatePdf.None? && a.proofs == []
  {
    Application(id, applicantId, documentType, request.formData, request.purpose, Pending, Desk1,
                None, None, now, None, None, [])
  }

  /**
    The upload loop: for each file in order, upload it under its stored file name
    and build its proof row with the next proof id. The first failed upload stops the
    loop (None); the proof ids handed out before it stay used.
  */
  method UploadProofs(db: Database, files: seq<Upload>, uuids: seq<string>, place: string -> string,
                      put: string -> bool)
    returns (proofs: Option<seq<DocumentProof>>)
    requires |uuids| == |files|
    modifies db`nextProofId
    ensures proofs.Some? <==> AllStored(files, uuids, place, put)
    ensures proofs.Some? ==>
      proofs.value == ExpectedProofs(old(db.nextProofId), files, uuids, place)
      && db.nextProofId == old(db.nextProofId) + |files|
  {
    var firstProofId := db.nextProofId;
    var built: seq<DocumentProof> := [];
    var i := 0;
    while i < |files|
      invariant 0 <= i <= |files|
      invariant db.nextProofId == firstProofId + i
      invariant |built| == i
      invariant forall j :: 0 <= j < i ==>
        built[j] == ProofFor(firstProofId + j, files[j], place(StoredFileName(uuids[j], files[j].originalFilename)))
      invariant forall j :: 0 <= j < i ==> put(place(StoredFileName(uuids[j], files[j].originalFilename)))
    {
      var fileName := StoredFileName(uuids[i], files[i].originalFilename);
      var location := place(fileName);
      if !put(location) {
        return None;
      }
      built := built + [ProofFor(db.nextProofId, files[i], location)];
      db.nextProofId := db.nextProofId + 1;
      i := i + 1;
    }
    assert built == ExpectedProofs(firstProofId, files, uuids, place);
    proofs := Some(built);
  }

  /**
    The submission both copies perform: parse the type (InvalidDocumentType escapes
    before anything is saved), save the application, run the upload loop, and save
    the application with its proofs. An upload failure fails the call with `failure`
    and the application is not kept (the ids handed out stay used).
  */
  method Submit(db: Database, applicantId: UserId, request: ApplicationRequest, files: seq<Upload>,
                uuids: seq<string>, now: Time, place: string -> string, put: string -> bool, failure: Error)
    returns (r: Result<Application>)
    requires db.Valid() && applicantId in db.users && |uuids| == |files|
    modifies db`applications, db`nextApplicationId, db`nextProofId
    ensures db.Valid()
    ensures ParseDocumentType(request.documentType).Err? ==>
      r == Err(InvalidDocumentType) && db.applications == old(db.applications)
      && db.nextApplicationId == old(db.nextApplicationId) && db.nextProofId == old(db.nextProofId)
    ensures ParseDocumentType(request.documentType).Ok? && !AllStored(files, uuids, place, put) ==>
      r == Err(failure) && db.applications == old(db.applications)
    ensures ParseDocumentType(request.documentType).Ok? && AllStored(files, uuids, place, put) ==>
      var id := old(db.nextApplicationId);
      var app := NewApplication(id, applicantId, ParseDocumentType(request.documentType).value, request, now)
        .(proofs := ExpectedProofs(old(db.nextProofId), files, uuids, place));
      r == Ok(app) && db.applications == old(db.applications)[id := app]
      && db.nextApplicationId == id + 1 && db.nextProofId == old(db.nextProofId) + |files|
  {
    var documentType := ParseDocumentType(request.documentType);
    if documentType.Err? {
      return Err(documentType.error);
    }
    var before := db.applications;
    var id := db.nextApplicationId;
    db.nextApplicationId := db.nextApplicationId + 1;
    var application := NewApplication(id, applicantId, documentType.value, request, now);
    SaveApplication(db.applications, db.users, db.nextApplicationId, application);
    db.applications := db.applications[id := application];
    var proofs := UploadProofs(db, files, uuids, place, put);
    if proofs.None? {
      db.applications := before;
      return Err(failure);
    }
    application := application.(proofs := proofs.value);
    SaveApplication(before, db.users, db.nextApplicationId, application);
    db.applications := before[id := application];
    r := Ok(application);
  }

  /**
    submitApplication (newer copy): files go to object storage under
    "documents/" + UUID + "_" + name; any failure in the upload loop is reported as
    DatabaseOperation by the catch-all handler.
  */
  method SubmitApplication(db: Database, applicantId: UserId, request: ApplicationRequest, files: seq<Upload>,
                           uuids: seq<string>, now: Time, put: string -> bool)
    returns (r: Result<Application>)
    requires db.Valid() && applicantId in db.users && |uuids| == |files|
    modifies db`applications, db`nextApplicationId, db`nextProofId
    ensures db.Valid()
    ensures ParseDocumentType(request.documentType).Err? ==>
      r == Err(InvalidDocumentType) && db.applications == old(db.applications)
      && db.nextApplicationId == old(db.nextApplicationId) && db.nextProofId == old(db.nextProofId)
    ensures ParseDocumentType(request.documentType).Ok? && !AllStored(files, uuids, ObjectName, put) ==>
      r == Err(DatabaseOperation) && db.applications == old(db.applications)
    ensures ParseDocumentType(request.documentType).Ok? && AllStored(files, uuids, ObjectName, put) ==>
      var id := old(db.nextApplicationId);
      var app := NewApplication(id, applicantId, ParseDocumentType(request.documentType).value, request, now)
        .(proofs := ExpectedProofs(old(db.nextProofId), files, uuids, ObjectName));
      r == Ok(app) && db.applications == old(db.applications)[id := app]
      && db.nextApplicationId == id + 1 && db.nextProofId == old(db.nextProofId) + |files|
  {
    r := Submit(db, applicantId, request, files, uuids, now, ObjectName, put, DatabaseOperation);
  }

  /** getApplicationById (newer copy): the not-found error is caught by the generic handler and rethrown as DatabaseOperation. */
  function ApplicationById(apps: map<AppId, Application>, id: AppId): (r: Result<Application>)
    ensures r.Ok? <==> id in apps
    ensures r.Ok? ==> r.value == apps[id]
    ensures r.Err? ==> r.error == DatabaseOperation
  {
    if id in apps then Ok(apps[id]) else Err(DatabaseOperation)
  }

  /**
    getCertificatePdf (both copies): ResourceNotFound for an unknown id,
    IllegalState unless the status is APPROVED, otherwise the stored certificate,
    which may be absent.
  */
  function CertificatePdf(apps: map<AppId, Application>, id: AppId): (r: Result<Option<Bytes>>)
    ensures id !in apps ==> r == Err(ResourceNotFound)
    ensures id in apps && apps[id].status != Approved ==> r == Err(IllegalState)
    ensures r.Ok? <==> id in apps && apps[id].status == Approved
    ensures r.Ok? ==> r.value == apps[id].certificatePdf
  {
    if id !in apps then Err(ResourceNotFound)
    else if apps[id].status != Approved then Err(IllegalState)
    else Ok(apps[id].certificatePdf)
  }

  /** DocumentProofResponse: the stored path is exposed as the file URL. */
  datatype ProofView = ProofView(id: nat, fileName: string, contentType: string, fileUrl: string)

  /** DocumentApplicationDetailsResponse (the last-modified date is not modelled). */
  datatype DetailsView = DetailsView(
    id: AppId, applicantName: string, adhaarNumber: Option<string>, formData: string,
    documentType: DocumentType, status: ApplicationStatus, purpose: string,
    rejectionReason: Option<string>, approvedByUserId: Option<UserId>, currentDesk: Desk,
    submissionDate: Time, resolvedDate: Option<Time>, applicantId: UserId, documentProofs: seq<ProofView>)

  function ProofViewOf(p: DocumentProof): ProofView
  {
    ProofView(p.id, p.fileName, p.contentType, p.filePath)
  }

  /**
    getDocumentApplicationDetails: DocumentNotFound for an unknown id; otherwise
    the application with its applicant's full name and Aadhaar number, the
    approver's id exactly when there is an approver, and its proofs in stored order.
  */
  function ApplicationDetails(apps: map<AppId, Application>, users: map<UserId, User>, id: AppId)
    : (r: Result<DetailsView>)
    requires id in apps ==> apps[id].applicantId in users
    ensures r.Err? <==> id !in apps
    ensures r.Err? ==> r.error == DocumentNotFound
    ensures r.Ok? ==> r.value.id == apps[id].id && r.value.applicantId == apps[id].applicantId
    ensures r.Ok? ==> r.value.approvedByUserId == apps[id].approvedBy
    ensures r.Ok? ==> r.value.applicantName == users[apps[id].applicantId].FullName()
    ensures r.Ok? ==> r.value.adhaarNumber == users[apps[id].applicantId].aadharNumber
    ensures r.Ok? ==>
      r.value.formData == apps[id].formData && r.value.documentType == apps[id].documentType
      && r.value.status == apps[id].status && r.value.purpose == apps[id].purpose
      && r.value.rejectionReason == apps[id].rejectionReason && r.value.currentDesk == apps[id].desk
      && r.value.submissionDate == apps[id].submissionDate && r.value.resolvedDate == apps[id].resolvedDate
    ensures r.Ok? ==> |r.value.documentProofs| == |apps[id].proofs|
    ensures r.Ok? ==> forall j :: 0 <= j < |apps[id].proofs| ==>
      r.value.documentProofs[j].id == apps[id].proofs[j].id &&
      r.value.documentProofs[j].fileName == apps[id].proofs[j].fileName &&
      r.value.documentProofs[j].contentType == apps[id].proofs[j].contentType &&
      r.value.documentProofs[j].fileUrl == apps[id].proofs[j].filePath
  {
    if id !in apps then Err(DocumentNotFound)
    else
      var app := apps[id];
      var applicant := users[app.applicantId];
      Ok(DetailsView(
        app.id, applicant.FullName(), applicant.aadharNumber, app.formData, app.documentType,
        app.status, app.purpose, app.rejectionReason,
        match app.approvedBy case Some(approver) => Some(approver) case None => None,
        app.desk, app.submissionDate, app.resolvedDate, app.applicantId,
        seq(|app.proofs|, j requires 0 <= j < |app.proofs| => ProofViewOf(app.proofs[j]))))
  }

  /**
    The details view and the plain lookup agree: both find exactly the stored ids, and
    the view shows the stored application's workflow state and its proofs, one view each.
  */
  lemma DetailsAgreeWithLookup(apps: map<AppId, Application>, users: map<UserId, User>, id: AppId)
    requires id in apps ==> apps[id].applicantId in users
    ensures ApplicationDetails(apps, users, id).Ok? <==> ApplicationById(apps, id).Ok?
    ensures ApplicationById(apps, id).Ok? ==>
      var app := ApplicationById(apps, id).value;
      var view := ApplicationDetails(apps, users, id).value;
      view.status == app.status && view.currentDesk == app.desk && view.rejectionReason == app.rejectionReason
      && view.approvedByUserId == app.approvedBy
      && view.documentProofs == seq(|app.proofs|, j requires 0 <= j < |app.proofs| => ProofViewOf(app.proofs[j]))
  {
    if id in apps {
      var app := apps[id];
      var view := ApplicationDetails(apps, users, id).value;
      assert |view.documentProofs| == |app.proofs|;
      assert forall j :: 0 <= j < |app.proofs| ==> view.documentProofs[j] == ProofViewOf(app.proofs[j]);
    }
  }

  /** getAllApplications (newer copy): the caller's own applications (findByApplicant). */
  function MyApplications(apps: map<AppId, Application>, applicant: UserId): (r: map<AppId, Application>)
    ensures forall id :: id in r <==> id in apps && apps[id].applicantId == applicant
    ensures forall id :: id in r ==> r[id] == apps[id]
  {
    map id | id in apps && apps[id].applicantId == applicant :: apps[id]
  }

  /** getApprovalPassesApplicationsOfCitizen: the caller's applications that are APPROVED, and only those. */
  function ApprovalPasses(apps: map<AppId, Application>, applicant: UserId): (r: map<AppId, Application>)
    ensures forall id :: id in r <==> id in apps && apps[id].applicantId == applicant && apps[id].status == Approved
    ensures forall id :: id in r ==> r[id] == apps[id]
  {
    map id | id in apps && apps[id].applicantId == applicant && apps[id].status == Approved :: apps[id]
  }

  /** Every approved pass is one of the citizen's applications, and its certificate can be downloaded. */
  lemma ApprovalPassesDownloadable(apps: map<AppId, Application>, applicant: UserId, id: AppId)
    requires id in ApprovalPasses(apps, applicant)
    ensures id in MyApplications(apps, applicant)
    ensures CertificatePdf(apps, id) == Ok(apps[id].certificatePdf)
  {
  }
}

=== FILE: domain.dfy ===
/**
  The records of the portal: applications and their uploaded proofs, users,
  tokens, audit records; the enums they use, with `valueOf`-style parsers.
*/
module Domain {
  import opened Common
  import Text

  type AppId = nat
  type UserId = nat
  /** Seconds on one clock; `LocalDateTime.now()` becomes a parameter of this type. */
  type Time = nat
  type Bytes = seq<bv8>

  const HOUR: nat := 3600

  /** DocumentApplication.DocumentType. */
  datatype DocumentType = Income | Caste | Domicile | Birth
  {
    function Name(): string
    {
      match this
      case Income => "INCOME"
      case Caste => "CASTE"
      case Domicile => "DOMICILE"
      case Birth => "BIRTH"
    }
  }

  /** DocumentApplication.ApplicationStatus: exactly these six constants. */
  datatype ApplicationStatus = Pending | UnderReview | Approved | Rejected | Reapplied | ChangesRequested
  {
    function Name(): string
    {
      match this
      case Pending => "PENDING"
      case UnderReview => "UNDER_REVIEW"
      case Approved => "APPROVED"
      case Rejected => "REJECTED"
      case Reapplied => "REAPPLIED"
      case ChangesRequested => "CHANGES_REQUESTED"
    }
  }

  /**
    The desk an application sits on. The services store it as a string column and only
    ever write these four values.
  */
  datatype Desk = Desk1 | Desk2 | UnderCertificateGeneration | Applicant
  {
    function Name(): string
    {
      match this
      case Desk1 => "DESK_1"
      case Desk2 => "DESK_2"
      case UnderCertificateGeneration => "UNDER_CERTIFICATE_GENERATION"
      case Applicant => "APPLICANT"
    }
  }

  /** User.Role. */
  datatype Role = Citizen | Verifier | Admin

  /** User.Designation; a user without one holds None. */
  datatype Designation = JuniorVerifier | SeniorVerifier
  {
    function Name(): string
    {
      match this
      case JuniorVerifier => "JUNIOR_VERIFIER"
      case SeniorVerifier => "SENIOR_VERIFIER"
    }
  }

  /** Token.TokenType. */
  datatype TokenType = Verification | PasswordReset

  /**
    DocumentType.fromString: `valueOf` of the upper-cased text, with the
    IllegalArgumentException of `valueOf` turned into InvalidDocumentType.
  */
  function ParseDocumentType(text: string): (r: Result<DocumentType>)
    ensures r.Ok? ==> r.value.Name() == Text.ToUpper(text)
    ensures r.Err? ==> r.error == InvalidDocumentType && forall t: DocumentType :: t.Name() != Text.ToUpper(text)
  {
    var upper := Text.ToUpper(text);
    if upper == "INCOME" then Ok(Income)
    else if upper == "CASTE" then Ok(Caste)
    else if upper == "DOMICILE" then Ok(Domicile)
    else if upper == "BIRTH" then Ok(Birth)
    else Err(InvalidDocumentType)
  }

  /** `ApplicationStatus.valueOf(text.toUpperCase())`; a miss is an IllegalArgumentException. */
  function ParseStatus(text: string): (r: Result<ApplicationStatus>)
    ensures r.Ok? ==> r.value.Name() == Text.ToUpper(text)
    ensures r.Err? ==> r.error == IllegalArgument && forall s: ApplicationStatus :: s.Name() != Text.ToUpper(text)
  {
    var upper := Text.ToUpper(text);
    if upper == "PENDING" then Ok(Pending)
    else if upper == "UNDER_REVIEW" then Ok(UnderReview)
    else if upper == "APPROVED" then Ok(Approved)
    else if upper == "REJECTED" then Ok(Rejected)
    else if upper == "REAPPLIED" then Ok(Reapplied)
    else if upper == "CHANGES_REQUESTED" then Ok(ChangesRequested)
    else Err(IllegalArgument)
  }

  /** `Designation.valueOf(text.toUpperCase())`; a miss is an IllegalArgumentException. */
  function ParseDesignation(text: string): (r: Result<Designation>)
    ensures r.Ok? ==> r.value.Name() == Text.ToUpper(text)
    ensures r.Err? ==> r.error == IllegalArgument && forall d: Designation :: d.Name() != Text.ToUpper(text)
  {
    var upper := Text.ToUpper(text);
    if upper == "JUNIOR_VERIFIER" then Ok(JuniorVerifier)
    else if upper == "SENIOR_VERIFIER" then Ok(SeniorVerifier)
    else Err(IllegalArgument)
  }

  /** A constant's own name parses back to that constant. */
  lemma ParseDocumentTypeName(t: DocumentType)
    ensures ParseDocumentType(t.Name()) == Ok(t)
  {
    UpperOfUpper(t.Name());
  }

  /** A status's own name parses back to that status. */
  lemma ParseStatusName(s: ApplicationStatus)
    ensures ParseStatus(s.Name()) == Ok(s)
  {
    UpperOfUpper(s.Name());
  }

  /** A designation's own name parses back to that designation. */
  lemma ParseDesignationName(d: Designation)
    ensures ParseDesignation(d.Name()) == Ok(d)
  {
    UpperOfUpper(d.Name());
  }

  /** The letter case of the text does not matter to the parser. */
  lemma ParseDocumentTypeAnyCase(text: string, t: DocumentType)
    requires Text.ToUpper(text) == t.Name()
    ensures ParseDocumentType(text) == Ok(t)
  {
  }

  /** Names made of upper-case letters and `_` are left alone by ToUpper. */
  lemma UpperOfUpper(s: string)
    requires forall i :: 0 <= i < |s| ==> 'A' <= s[i] <= 'Z' || s[i] == '_'
    ensures Text.ToUpper(s) == s
  {
  }

  /** An uploaded file's metadata, DocumentProof. */
  datatype DocumentProof = DocumentProof(id: nat, fileName: string, filePath: string, contentType: string)

  /**
    DocumentApplication. Nullable columns are Options; the applicant and the
    approver are held by id.
  */
  datatype Application = Application(
    id: AppId,
    applicantId: UserId,
    documentType: DocumentType,
    formData: string,
    purpose: string,
    status: ApplicationStatus,
    desk: Desk,
    rejectionReason: Option<string>,
    approvedBy: Option<UserId>,
    submissionDate: Time,
    resolvedDate: Option<Time>,
    certificatePdf: Option<Bytes>,
    proofs: seq<DocumentProof>)
  {
    /**
      The desk and the status agree: an application on a verifier's desk is still
      pending (or under review), one waiting for its certificate is approved, one
      handed back to the applicant is rejected or has changes requested.
    */
    predicate Consistent()
    {
      match desk
      case Desk1 => status == Pending
      case Desk2 => status == Pending || status == UnderReview
      case UnderCertificateGeneration => status == Approved
      case Applicant => status == Rejected || status == ChangesRequested
    }
  }

  /**
    Two versions of one application agree on everything the workflow never writes:
    the id, the applicant, the type, the form, the purpose and the submission date
    (a column declared not updatable) and the uploaded proofs.
  */
  predicate SameSubmission(a: Application, b: Application)
  {
    a.id == b.id && a.applicantId == b.applicantId && a.documentType == b.documentType
    && a.formData == b.formData && a.purpose == b.purpose
    && a.submissionDate == b.submissionDate && a.proofs == b.proofs
  }

  /** User; the citizen-only profile fields other than the Aadhaar number are left out. */
  datatype User = User(
    id: UserId,
    firstName: string,
    lastName: string,
    email: string,
    password: string,
    role: Role,
    enabled: bool,
    blocked: bool,
    designation: Option<Designation>,
    aadharNumber: Option<string>)
  {
    /** User.getFullName. */
    function FullName(): string
    {
      firstName + " " + lastName
    }
  }

  /**
    A user built by the no-argument constructor and then given the mapped fields:
    the declared defaults hold for everything not mapped.
  */
  function NewUser(id: UserId, firstName: string, lastName: string, email: string, password: string,
                   aadharNumber: Option<string>): (u: User)
    ensures u.role == Citizen && !u.enabled && !u.blocked && u.designation == None
    ensures u.id == id && u.email == email && u.password == password
  {
    User(id, firstName, lastName, email, password, Citizen, false, false, None, aadharNumber)
  }

  /** The full name of a user with one-word first and last names splits back into those names. */
  lemma FullNameSplits(u: User)
    requires u.firstName != "" && u.lastName != ""
    requires ' ' !in u.firstName && ' ' !in u.lastName
    ensures Text.Split(u.FullName()) == [u.firstName, u.lastName]
  {
    Text.SplitTwoWords(u.firstName, u.lastName);
  }

  /** The `email` column is unique. */
  predicate EmailsUnique(users: map<UserId, User>)
  {
    forall a, b :: a in users && b in users && users[a].email == users[b].email ==> a == b
  }

  /** The `aadharNumber` column is unique among the users that have one. */
  predicate AadharUnique(users: map<UserId, User>)
  {
    forall a, b ::
      (a in users && b in users && users[a].aadharNumber.Some? && users[a].aadharNumber == users[b].aadharNumber)
      ==> a == b
  }

  /** Whether some user already holds this Aadhaar number (the unique column). */
  predicate AadharTaken(users: map<UserId, User>, aadhar: Option<string>)
  {
    aadhar.Some? && exists id :: id in users && users[id].aadharNumber == aadhar
  }

  /** The user registered under `email`, if any (UserRepository.findByEmail). */
  function FindByEmail(users: map<UserId, User>, email: string): (r: Option<UserId>)
    requires EmailsUnique(users)
    ensures r.Some? ==> r.value in users && users[r.value].email == email
    ensures r.None? ==> forall id :: id in users ==> users[id].email != email
  {
    if exists id :: id in users && users[id].email == email then
      var id :| id in users && users[id].email == email; Some(id)
    else None
  }

  /** UserRepository.existsByEmail. */
  predicate EmailTaken(users: map<UserId, User>, email: string)
  {
    exists id :: id in users && users[id].email == email
  }

  /** Token: a one-time value with its purpose, its expiry and its owner. */
  datatype Token = Token(value: string, tokenType: TokenType, expiry: Time, userId: UserId)

  /** AuditLog: who did what, with a free-text detail, and when. */
  datatype AuditRecord = AuditRecord(userId: UserId, action: string, details: string, timestamp: Time)

  /**
    The password encoder. Hashing is not modelled; a marked copy of the raw
    password stands for the encoded form, which keeps the one property the services
    rely on: different passwords encode differently.
  */
  function EncodePassword(raw: string): string
  {
    "{enc}" + raw
  }

  lemma EncodePasswordInjective(a: string, b: string)
    requires EncodePassword(a) == EncodePassword(b)
    ensures a == b
  {
    assert a == EncodePassword(a)[5..];
    assert b == EncodePassword(b)[5..];
  }
}

=== FILE: legacy_admin.dfy ===
/**
  AdminServiceImpl, the older copy. Its createVerifierAccount assigns no
  designation and no Aadhaar number, and its user view carries neither the
  designation nor the enabled flag. Its deleteVerifierAccount, toggleUserBlockStatus,
  getSystemStatistics and getAllApplications are the same code as the newer copy's
  and are modelled once, in module Admin.
*/
module LegacyAdmin {
  import opened Common
  import opened Domain
  import opened Store
  import Text
  import Admin
  import Verification

  /**
    The older mapToUserResponse: the enabled flag is never copied, so the view
    shows the field's default, false, and there is no designation.
  */
  function MapToUserResponse(u: User): (r: Admin.UserResponse)
    ensures r.id == u.id && r.email == u.email && r.role == u.role && r.blocked == u.blocked
    ensures r.fullName == u.FullName()
    ensures !r.enabled && r.designation == None
  {
    Admin.UserResponse(u.id, u.firstName + " " + u.lastName, u.email, u.role, None, u.blocked, false)
  }

  /**
    The verifier the older createVerifierAccount builds: enabled, with the names
    taken from split positions 0 and 1 (fewer than two words fail with
    IndexOutOfBounds), and with no designation and no Aadhaar number.
  */
  function NewVerifier(id: UserId, request: Admin.CreateVerifierRequest): (r: Result<User>)
    ensures r.Err? <==> |Text.Split(request.fullName)| < 2
    ensures r.Err? ==> r.error == IndexOutOfBounds
    ensures r.Ok? ==>
      var parts := Text.Split(request.fullName);
      r.value.firstName == parts[0] && r.value.lastName == parts[1]
    ensures r.Ok? ==> r.value.id == id && r.value.role == Verifier && r.value.enabled && !r.value.blocked
    ensures r.Ok? ==> r.value.designation == None && r.value.aadharNumber == None
    ensures r.Ok? ==> r.value.email == request.email && r.value.password == EncodePassword(request.password)
  {
    var parts := Text.Split(request.fullName);
    if |parts| < 2 then Err(IndexOutOfBounds)
    else Ok(User(id, parts[0], parts[1], request.email, EncodePassword(request.password),
                 Verifier, true, false, None, None))
  }

  /**
    The two copies build the same verifier except for the designation and the
    Aadhaar number, which only the newer copy sets.
  */
  lemma CopiesDifferInDesignation(id: UserId, request: Admin.CreateVerifierRequest)
    requires Admin.NewVerifier(id, request).Ok?
    ensures NewVerifier(id, request).Ok?
    ensures NewVerifier(id, request).value
         == Admin.NewVerifier(id, request).value.(designation := None, aadharNumber := None)
  {
  }

  /**
    A verifier created by the older copy has no designation, so the pending
    listing refuses them with UnsupportedOperation whatever the table holds.
  */
  lemma LegacyVerifierHasNoQueue(apps: map<AppId, Application>, id: UserId, request: Admin.CreateVerifierRequest)
    requires NewVerifier(id, request).Ok?
    ensures Verification.PendingApplications(apps, NewVerifier(id, request).value.designation)
         == Err(UnsupportedOperation)
  {
  }

  /** The older view of any enabled user misreports them as not enabled. */
  lemma LegacyViewHidesEnabled(u: User)
    requires u.enabled
    ensures Admin.MapToUserResponse(u).enabled && !MapToUserResponse(u).enabled
  {
  }

  /**
    The older createVerifierAccount: a registered email fails with
    EmailAlreadyExists; otherwise the verifier is built and stored under the next
    user id. With no Aadhaar number there is no second unique column to violate.
  */
  method CreateVerifierAccount(db: Database, request: Admin.CreateVerifierRequest)
    returns (r: Result<Admin.UserResponse>)
    requires db.Valid()
    modifies db`users, db`nextUserId
    ensures db.Valid()
    ensures EmailTaken(old(db.users), request.email) ==>
      r == Err(EmailAlreadyExists) && db.users == old(db.users) && db.nextUserId == old(db.nextUserId)
    ensures (!EmailTaken(old(db.users), request.email) && NewVerifier(old(db.nextUserId), request).Err?) ==>
      r == Err(IndexOutOfBounds) && db.users == old(db.users) && db.nextUserId == old(db.nextUserId)
    ensures (!EmailTaken(old(db.users), request.email) && NewVerifier(old(db.nextUserId), request).Ok?) ==>
      var v := NewVerifier(old(db.nextUserId), request).value;
      r == Ok(MapToUserResponse(v))
      && db.users == old(db.users)[v.id := v] && db.nextUserId == old(db.nextUserId) + 1
  {
    if EmailTaken(db.users, request.email) {
      return Err(EmailAlreadyExists);
    }
    var built := NewVerifier(db.nextUserId, request);
    if built.Err? {
      return Err(built.error);
    }
    var verifier := built.value;
    UsersGrow(db.applications, db.tokens, db.auditLog, db.users, db.users[verifier.id := verifier], db.nextApplicationId);
    db.users := db.users[verifier.id := verifier];
    db.nextUserId := db.nextUserId + 1;
    r := Ok(MapToUserResponse(verifier));
  }
}

=== FILE: legacy_auth.dfy ===
/**
  AuthServiceImpl, the older copy: its completePasswordReset leaves an expired
  token in place. Its other operations are the same code as the newer copy's and
  are modelled in module Auth.
*/
module LegacyAuth {
  import opened Common
  import opened Domain
  import opened Store
  import Tokens

  /**
    The older completePasswordReset: an unknown token fails with InvalidToken; an
    expired one fails with TokenExpired and nothing changes; otherwise the owner's
    password becomes the encoded new one and the token is deleted.
  */
  method CompletePasswordReset(db: Database, value: string, newPassword: string, now: Time) returns (r: Result<()>)
    requires db.Valid()
    modifies db`users, db`tokens
    ensures db.Valid()
    ensures value !in old(db.tokens) ==>
      r == Err(InvalidToken) && db.users == old(db.users) && db.tokens == old(db.tokens)
    ensures (value in old(db.tokens) && Tokens.Expired(old(db.tokens)[value], now)) ==>
      r == Err(TokenExpired) && db.users == old(db.users) && db.tokens == old(db.tokens)
    ensures (value in old(db.tokens) && !Tokens.Expired(old(db.tokens)[value], now)) ==>
      var owner := old(db.tokens)[value].userId;
      r == Ok(())
      && db.users == old(db.users)[owner := old(db.users)[owner].(password := EncodePassword(newPassword))]
      && db.tokens == old(db.tokens) - {value}
  {
    if value !in db.tokens {
      return Err(InvalidToken);
    }
    var token := db.tokens[value];
    if Tokens.Expired(token, now) {
      return Err(TokenExpired);
    }
    var user := db.users[token.userId].(password := EncodePassword(newPassword));
    ReplaceUser(db.applications, db.tokens, db.auditLog, db.users, db.nextApplicationId, db.nextUserId, user);
    db.users := db.users[user.id := user];
    db.tokens := db.tokens - {value};
    r := Ok(());
  }
}

=== FILE: legacy_documents.dfy ===
/**
  DocumentServiceImpl, the older copy: the same submission, storing each file in a
  local upload directory, and a listing that returns every application. Its
  getApplicationById is the lookup of module Verification (ResourceNotFound for an
  unknown id) and its getCertificatePdf is Documents.CertificatePdf.
*/
module LegacyDocuments {
  import opened Common
  import opened Domain
  import opened Store
  import Documents
  import Verification
  import LegacyVerification

  /** The stored path of a file: the upload directory, a separator, then the stored file name. */
  function LocalPath(uploadDir: string, fileName: string): string
  {
    uploadDir + "/" + fileName
  }

  /**
    submitApplication (older copy): files are copied to `uploadDir`; a failed copy
    (an IOException) is reported as FileStorage.
  */
  method SubmitApplication(db: Database, applicantId: UserId, request: Documents.ApplicationRequest,
                           files: seq<Documents.Upload>, uuids: seq<string>, now: Time, uploadDir: string,
                           copy: string -> bool)
    returns (r: Result<Application>)
    requires db.Valid() && applicantId in db.users && |uuids| == |files|
    modifies db`applications, db`nextApplicationId, db`nextProofId
    ensures db.Valid()
    ensures ParseDocumentType(request.documentType).Err? ==>
      r == Err(InvalidDocumentType) && db.applications == old(db.applications)
      && db.nextApplicationId == old(db.nextApplicationId) && db.nextProofId == old(db.nextProofId)
    ensures (ParseDocumentType(request.documentType).Ok? &&
             !Documents.AllStored(files, uuids, f => LocalPath(uploadDir, f), copy)) ==>
      r == Err(FileStorage) && db.applications == old(db.applications)
    ensures (ParseDocumentType(request.documentType).Ok? &&
             Documents.AllStored(files, uuids, f => LocalPath(uploadDir, f), copy)) ==>
      var id := old(db.nextApplicationId);
      var app := Documents.NewApplication(id, applicantId, ParseDocumentType(request.documentType).value, request, now)
        .(proofs := Documents.ExpectedProofs(old(db.nextProofId), files, uuids, f => LocalPath(uploadDir, f)));
      r == Ok(app) && db.applications == old(db.applications)[id := app]
      && db.nextApplicationId == id + 1 && db.nextProofId == old(db.nextProofId) + |files|
  {
    r := Documents.Submit(db, applicantId, request, files, uuids, now, f => LocalPath(uploadDir, f), copy, FileStorage);
  }

  /** getAllApplications (older copy): every application, whoever submitted it (findAll). */
  function AllApplications(apps: map<AppId, Application>): (r: map<AppId, Application>)
    ensures r.Keys == apps.Keys
    ensures forall id :: id in r ==> r[id] == apps[id]
  {
    apps
  }

  /**
    The older listing is wider than the newer one: it contains the caller's own
    applications and also any application of another applicant.
  */
  lemma AllApplicationsShowsOthers(apps: map<AppId, Application>, caller: UserId, id: AppId)
    requires id in apps && apps[id].applicantId != caller
    ensures id in AllApplications(apps) && id !in Documents.MyApplications(apps, caller)
    ensures forall k :: k in Documents.MyApplications(apps, caller) ==> k in AllApplications(apps)
  {
  }

  /**
    With the desk comparison corrected, the older copy's senior approval sets
    APPROVED without rendering a certificate, so the download of a never-certified
    application yields no bytes.
  */
  lemma LegacyApprovalHasNoCertificate(apps: map<AppId, Application>, id: AppId, senior: User, now: Time)
    requires id in apps && apps[id].desk == Desk2 && apps[id].certificatePdf.None?
    requires senior.designation == Some(SeniorVerifier)
    ensures var after := apps[id := LegacyVerification.Approve(apps[id], senior, now)];
      Documents.CertificatePdf(after, id) == Ok(None)
  {
  }

  /**
    The older approval as written never routes a loaded application, so one that was
    not APPROVED before is still not APPROVED, and its download fails with IllegalState.
  */
  lemma LegacyApprovalAsWrittenRefused(apps: map<AppId, Application>, id: AppId, senior: User, now: Time)
    requires id in apps && apps[id].desk == Desk2 && apps[id].status != Approved
    requires senior.designation == Some(SeniorVerifier)
    ensures var after := apps[id := LegacyVerification.ApproveAsWritten(apps[id], senior, now, false)];
      Documents.CertificatePdf(after, id) == Err(IllegalState)
  {
  }

  /** In the newer copy the same approval stores the rendered certificate, which the download then returns. */
  lemma NewerApprovalHasCertificate(apps: map<AppId, Application>, id: AppId, senior: User, now: Time, pdf: Bytes)
    requires id in apps && apps[id].desk == Desk2
    requires senior.designation == Some(SeniorVerifier)
    ensures var routed := Verification.Approve(apps[id], senior, now);
      var saved := Verification.WithCertificate(routed, Some(pdf));
      saved.Some? && Documents.CertificatePdf(apps[id := saved.value], id) == Ok(Some(pdf))
  {
  }

  /** After a rejection the certificate can no longer be downloaded, even if it is still stored. */
  lemma RejectedCertificateRefused(apps: map<AppId, Application>, id: AppId, remarks: string, now: Time)
    requires id in apps
    ensures Documents.CertificatePdf(apps[id := Verification.Reject(apps[id], remarks, now)], id) == Err(IllegalState)
  {
  }
}

=== FILE: legacy_verification.dfy ===
/**
  VerificationServiceImpl, the older copy. Its approval marks the junior step with
  status UNDER_REVIEW and generates no certificate. Its reject, requestChanges,
  pending listing, statistics and lookup helper are the same code as the newer
  copy's and are modelled once, in module Verification.
*/
module LegacyVerification {
  import opened Common
  import opened Domain
  import opened Store
  import Audit
  import Verification

  /**
    The older approveApplication's field updates, with the desk compared by value:
    a junior moves DESK_1 to DESK_2 and sets UNDER_REVIEW, a senior moves DESK_2 to
    UNDER_CERTIFICATE_GENERATION and sets APPROVED; the resolved date and the
    approver are stamped in every case.
  */
  function Approve(app: Application, actor: User, now: Time): (r: Application)
    ensures SameSubmission(app, r)
    ensures r.resolvedDate == Some(now) && r.approvedBy == Some(actor.id)
    ensures r.rejectionReason == app.rejectionReason && r.certificatePdf == app.certificatePdf
    ensures Verification.JuniorMatch(app, actor) ==> r.desk == Desk2 && r.status == UnderReview
    ensures Verification.SeniorMatch(app, actor) ==> r.desk == UnderCertificateGeneration && r.status == Approved
    ensures !Verification.JuniorMatch(app, actor) && !Verification.SeniorMatch(app, actor) ==>
      r.desk == app.desk && r.status == app.status
  {
    var routed :=
      if Verification.JuniorMatch(app, actor) then app.(desk := Desk2, status := UnderReview)
      else if Verification.SeniorMatch(app, actor) then app.(desk := UnderCertificateGeneration, status := Approved)
      else app;
    routed.(resolvedDate := Some(now), approvedBy := Some(actor.id))
  }

  /**
    The older approveApplication as written: the desk is compared with `==`, which
    in Java tests whether the stored string is the very same object as the literal.
    `sameObject` says whether it is; for an application loaded from the database it
    is a fresh string, so `sameObject` is false and neither branch can match.
  */
  function ApproveAsWritten(app: Application, actor: User, now: Time, sameObject: bool): (r: Application)
    ensures sameObject ==> r == Approve(app, actor, now)
    ensures !sameObject ==> r.desk == app.desk && r.status == app.status
    ensures r.resolvedDate == Some(now) && r.approvedBy == Some(actor.id)
  {
    var routed :=
      if sameObject && Verification.JuniorMatch(app, actor) then app.(desk := Desk2, status := UnderReview)
      else if sameObject && Verification.SeniorMatch(app, actor) then
        app.(desk := UnderCertificateGeneration, status := Approved)
      else app;
    routed.(resolvedDate := Some(now), approvedBy := Some(actor.id))
  }

  /**
    The discrepancy: a junior approving a loaded DESK_1 application leaves it on
    DESK_1 (yet stamps it as approved by them), where the intended comparison moves it to DESK_2.
  */
  lemma AsWrittenJuniorStuck(app: Application, junior: User, now: Time)
    requires junior.designation == Some(JuniorVerifier) && app.desk == Desk1
    ensures ApproveAsWritten(app, junior, now, false).desk == Desk1
    ensures ApproveAsWritten(app, junior, now, false).approvedBy == Some(junior.id)
    ensures Approve(app, junior, now).desk == Desk2
  {
  }

  /** As written, no loaded application ever reaches APPROVED through this copy. */
  lemma AsWrittenNeverApproves(app: Application, actor: User, now: Time)
    requires app.status != Approved
    ensures ApproveAsWritten(app, actor, now, false).status != Approved
  {
  }

  /** The two copies agree on where an approval sends an application and differ only in the junior step's status. */
  lemma CopiesAgreeOnDesk(app: Application, actor: User, now: Time)
    ensures Approve(app, actor, now).desk == Verification.Approve(app, actor, now).desk
    ensures Verification.JuniorMatch(app, actor) ==>
      Approve(app, actor, now).status == UnderReview && Verification.Approve(app, actor, now).status == app.status
    ensures !Verification.JuniorMatch(app, actor) ==> Approve(app, actor, now) == Verification.Approve(app, actor, now)
  {
  }

  /** The older approval keeps desk and status in agreement. */
  lemma ApprovePreservesConsistency(app: Application, actor: User, now: Time)
    requires app.Consistent()
    ensures Approve(app, actor, now).Consistent()
  {
  }

  /**
    The older approveApplication (with the desk compared by value): route, stamp,
    save, and append one DOCUMENT_APPROVED record; no certificate is generated.
  */
  method ApproveApplication(db: Database, id: AppId, actorId: UserId, remarks: string, now: Time)
    returns (r: Result<Application>)
    requires db.Valid() && actorId in db.users
    modifies db`applications, db`auditLog
    ensures db.Valid()
    ensures id !in old(db.applications) ==>
      r == Err(ResourceNotFound) && db.applications == old(db.applications) && db.auditLog == old(db.auditLog)
    ensures id in old(db.applications) ==>
      var saved := Approve(old(db.applications)[id], db.users[actorId], now);
      r == Ok(saved)
      && db.applications == old(db.applications)[id := saved]
      && db.auditLog == old(db.auditLog)
         + [AuditRecord(actorId, "DOCUMENT_APPROVED",
                        Verification.ApprovedDetails(id, db.users[actorId].email, remarks), now)]
  {
    var found := Verification.FindApplication(db.applications, id);
    if found.Err? {
      return Err(found.error);
    }
    var currentUser := db.users[actorId];
    var application := Approve(found.value, currentUser, now);
    SaveApplication(db.applications, db.users, db.nextApplicationId, application);
    db.applications := db.applications[id := application];
    Audit.LogActivity(db, actorId, "DOCUMENT_APPROVED", Verification.ApprovedDetails(id, currentUser.email, remarks), now);
    r := Ok(application);
  }

  /**
    The older approveApplication as written, on an application loaded from the
    database: the `==` comparison never matches, so the application keeps its desk
    and status, yet it is stamped, saved and logged as DOCUMENT_APPROVED.
  */
  method ApproveApplicationAsWritten(db: Database, id: AppId, actorId: UserId, remarks: string, now: Time)
    returns (r: Result<Application>)
    requires db.Valid() && actorId in db.users
    modifies db`applications, db`auditLog
    ensures db.Valid()
    ensures id !in old(db.applications) ==>
      r == Err(ResourceNotFound) && db.applications == old(db.applications) && db.auditLog == old(db.auditLog)
    ensures id in old(db.applications) ==>
      var saved := ApproveAsWritten(old(db.applications)[id], db.users[actorId], now, false);
      r == Ok(saved)
      && saved.desk == old(db.applications)[id].desk && saved.status == old(db.applications)[id].status
      && db.applications == old(db.applications)[id := saved]
      && db.auditLog == old(db.auditLog)
         + [AuditRecord(actorId, "DOCUMENT_APPROVED",
                        Verification.ApprovedDetails(id, db.users[actorId].email, remarks), now)]
  {
    var found := Verification.FindApplication(db.applications, id);
    if found.Err? {
      return Err(found.error);
    }
    var currentUser := db.users[actorId];
    var application := ApproveAsWritten(found.value, currentUser, now, false);
    SaveApplication(db.applications, db.users, db.nextApplicationId, application);
    db.applications := db.applications[id := application];
    Audit.LogActivity(db, actorId, "DOCUMENT_APPROVED", Verification.ApprovedDetails(id, currentUser.email, remarks), now);
    r := Ok(application);
  }
}

=== FILE: store.dfy ===
/**
  The database the services share: one table per repository, each a map keyed by
  the row's id (tokens by their unique value, configuration by its key), the audit
  log as an append-only sequence, and the IDENTITY counters that hand out new ids.
*/
module Store {
  import opened Common
  import opened Domain

  /** The application row may be stored next to these users: its foreign keys resolve. */
  predicate ApplicationFits(app: Application, users: map<UserId, User>)
  {
    app.applicantId in users && (app.approvedBy.Some? ==> app.approvedBy.value in users)
  }

  /** Every application is stored under its own id, below the counter, with resolving foreign keys. */
  predicate ApplicationsValid(apps: map<AppId, Application>, users: map<UserId, User>, next: nat)
  {
    forall id :: id in apps ==> apps[id].id == id && id < next && ApplicationFits(apps[id], users)
  }

  /** Every user is stored under its own id, below the counter; email and Aadhaar number are unique. */
  predicate UsersValid(users: map<UserId, User>, next: nat)
  {
    (forall id :: id in users ==> users[id].id == id && id < next)
    && EmailsUnique(users) && AadharUnique(users)
  }

  /** Every token is stored under its own value and belongs to a stored user. */
  predicate TokensValid(tokens: map<string, Token>, users: map<UserId, User>)
  {
    forall t :: t in tokens ==> tokens[t].value == t && tokens[t].userId in users
  }

  /** Every audit record names a stored user. */
  predicate AuditValid(log: seq<AuditRecord>, users: map<UserId, User>)
  {
    forall i :: 0 <= i < |log| ==> log[i].userId in users
  }

  /** Saving an application whose foreign keys resolve keeps the applications table valid. */
  lemma SaveApplication(apps: map<AppId, Application>, users: map<UserId, User>, next: nat, app: Application)
    requires ApplicationsValid(apps, users, next)
    requires app.id < next && ApplicationFits(app, users)
    ensures ApplicationsValid(apps[app.id := app], users, next)
  {
  }

  /** Whether some stored row still points at user `id` through a foreign key. */
  predicate Referenced(apps: map<AppId, Application>, tokens: map<string, Token>, log: seq<AuditRecord>, id: UserId)
  {
    (exists a :: a in apps && (apps[a].applicantId == id || apps[a].approvedBy == Some(id)))
    || (exists t :: t in tokens && tokens[t].userId == id)
    || (exists i :: 0 <= i < |log| && log[i].userId == id)
  }

  /** Adding users keeps every foreign key of the other tables resolving. */
  lemma UsersGrow(apps: map<AppId, Application>, tokens: map<string, Token>, log: seq<AuditRecord>,
                  users: map<UserId, User>, users': map<UserId, User>, next: nat)
    requires ApplicationsValid(apps, users, next) && TokensValid(tokens, users) && AuditValid(log, users)
    requires users.Keys <= users'.Keys
    ensures ApplicationsValid(apps, users', next) && TokensValid(tokens, users') && AuditValid(log, users')
  {
  }

  /** Removing a user that no row references keeps every foreign key resolving. */
  lemma RemoveUnreferenced(apps: map<AppId, Application>, tokens: map<string, Token>, log: seq<AuditRecord>,
                           users: map<UserId, User>, next: nat, id: UserId)
    requires ApplicationsValid(apps, users, next) && TokensValid(tokens, users) && AuditValid(log, users)
    requires !Referenced(apps, tokens, log, id)
    ensures ApplicationsValid(apps, users - {id}, next) && TokensValid(tokens, users - {id})
    ensures AuditValid(log, users - {id})
  {
  }

  /** Replacing a stored user by one with the same id, email and Aadhaar number keeps the tables valid. */
  lemma ReplaceUser(apps: map<AppId, Application>, tokens: map<string, Token>, log: seq<AuditRecord>,
                    users: map<UserId, User>, nextApp: nat, nextUser: nat, u: User)
    requires ApplicationsValid(apps, users, nextApp) && UsersValid(users, nextUser)
    requires TokensValid(tokens, users) && AuditValid(log, users)
    requires u.id in users && users[u.id].email == u.email && users[u.id].aadharNumber == u.aadharNumber
    ensures ApplicationsValid(apps, users[u.id := u], nextApp) && UsersValid(users[u.id := u], nextUser)
    ensures TokensValid(tokens, users[u.id := u]) && AuditValid(log, users[u.id := u])
  {
  }

  class Database {
    var applications: map<AppId, Application>
    var users: map<UserId, User>
    var tokens: map<string, Token>
    var auditLog: seq<AuditRecord>
    var configs: map<string, Option<string>>
    var nextApplicationId: nat
    var nextUserId: nat
    var nextProofId: nat

    /**
      The constraints the schema enforces: keys match ids and lie below their
      counter, every foreign key points at a stored user, and the unique columns
      (email, Aadhaar number, token value) are unique.
    */
    ghost predicate Valid()
      reads this
    {
      ApplicationsValid(applications, users, nextApplicationId)
      && UsersValid(users, nextUserId)
      && TokensValid(tokens, users)
      && AuditValid(auditLog, users)
    }

    /** An empty schema. */
    constructor()
      ensures Valid()
      ensures applications == map[] && users == map[] && tokens == map[]
      ensures auditLog == [] && configs == map[]
    {
      applications := map[];
      users := map[];
      tokens := map[];
      auditLog := [];
      configs := map[];
      nextApplicationId := 1;
      nextUserId := 1;
      nextProofId := 1;
    }
  }
}

=== FILE: text.dfy ===
/**
  The operations of java.lang.String the services rely on: upper-casing before
  `Enum.valueOf`, `split(" ")` on a full name, `%d` formatting of ids, and the
  cut at the first `_` that separates the UUID from a stored file's name.
*/
module Text {
  import opened Common

  predicate IsLower(c: char) { 'a' <= c <= 'z' }

  predicate IsDigit(c: char) { '0' <= c <= '9' }

  /** Upper-cases an ASCII letter `a`-`z`; every other character is kept as it is. */
  function UpperChar(c: char): char
  {
    if IsLower(c) then (c as int - 32) as char else c
  }

  /**
    The upper-casing the services apply before `Enum.valueOf`, restricted to ASCII:
    only `a`-`z` are mapped, one character to one, so the length is kept, no ASCII
    lower-case letter is left, and a string without one is unchanged. Java's
    `toUpperCase()` also maps other scripts, may lengthen the text and depends on the
    default locale; those mappings are not part of this model.
  */
  function ToUpper(s: string): (r: string)
    ensures |r| == |s|
    ensures forall i :: 0 <= i < |r| ==> !IsLower(r[i])
    ensures (forall i :: 0 <= i < |s| ==> !IsLower(s[i])) ==> r == s
  {
    seq(|s|, i requires 0 <= i < |s| => UpperChar(s[i]))
  }

  /**
    The pieces of `s` between single spaces, in order, with every piece kept
    (two adjacent spaces give an empty piece).
  */
  function Fields(s: string): (r: seq<string>)
    ensures |r| >= 1
    ensures forall k :: 0 <= k < |r| ==> ' ' !in r[k]
  {
    if s == [] then [""]
    else
      var rest := Fields(s[1..]);
      if s[0] == ' ' then [""] + rest
      else [[s[0]] + rest[0]] + rest[1..]
  }

  /** The inverse of Fields: the pieces put back together with one space between neighbours. */
  function JoinWithSpace(parts: seq<string>): string
    requires |parts| >= 1
  {
    if |parts| == 1 then parts[0] else parts[0] + " " + JoinWithSpace(parts[1..])
  }

  /** Splitting at spaces loses nothing: joining the fields gives back the string. */
  lemma {:induction false} JoinFields(s: string)
    ensures JoinWithSpace(Fields(s)) == s
  {
    if s != [] {
      var rest := Fields(s[1..]);
      JoinFields(s[1..]);
      if s[0] == ' ' {
        assert ([""] + rest)[1..] == rest;
        assert s == " " + s[1..];
      } else {
        var parts := [[s[0]] + rest[0]] + rest[1..];
        if |rest| == 1 {
          assert parts == [[s[0]] + rest[0]];
          assert s == [s[0]] + s[1..];
        } else {
          assert parts[1..] == rest[1..];
          assert JoinWithSpace(rest) == rest[0] + " " + JoinWithSpace(rest[1..]);
          assert s == [s[0]] + s[1..];
        }
      }
    }
  }

  /** A string without a space is a single field. */
  lemma {:induction false} FieldsOfWord(w: string)
    requires ' ' !in w
    ensures Fields(w) == [w]
  {
    if w != [] {
      assert ' ' !in w[1..] by {
        forall k | 0 <= k < |w[1..]| ensures w[1..][k] != ' ' { assert w[1..][k] == w[k + 1]; }
      }
      FieldsOfWord(w[1..]);
      assert [w[0]] + w[1..] == w;
    }
  }

  /** A space right after a word ends that word's field. */
  lemma {:induction false} FieldsAfterWord(w: string, tail: string)
    requires ' ' !in w
    ensures Fields(w + " " + tail) == [w] + Fields(tail)
  {
    if w == [] {
      assert w + " " + tail == " " + tail;
      assert (" " + tail)[1..] == tail;
    } else {
      var s := w + " " + tail;
      assert s[1..] == w[1..] + " " + tail;
      assert ' ' !in w[1..] by {
        forall k | 0 <= k < |w[1..]| ensures w[1..][k] != ' ' { assert w[1..][k] == w[k + 1]; }
      }
      FieldsAfterWord(w[1..], tail);
      assert s[0] == w[0];
      assert [w[0]] + w[1..] == w;
    }
  }

  /** Drops the empty strings at the end of a list, as String.split with limit 0 does. */
  function DropTrailingEmpty(parts: seq<string>): (r: seq<string>)
    ensures |r| <= |parts| && r == parts[..|r|]
    ensures r == [] || r[|r| - 1] != ""
    ensures forall k :: |r| <= k < |parts| ==> parts[k] == ""
  {
    if parts != [] && parts[|parts| - 1] == "" then DropTrailingEmpty(parts[..|parts| - 1]) else parts
  }

  /**
    String.split(" "): a string with no space is returned whole (even when empty);
    otherwise the fields, with the empty ones at the end removed.
  */
  function Split(s: string): (r: seq<string>)
    ensures forall k :: 0 <= k < |r| ==> ' ' !in r[k]
    ensures ' ' !in s ==> r == [s]
    ensures ' ' in s ==> r == [] || r[|r| - 1] != ""
  {
    if ' ' !in s then [s] else DropTrailingEmpty(Fields(s))
  }

  /** Two words joined by one space split back into exactly those two words. */
  lemma SplitTwoWords(first: string, last: string)
    requires first != "" && last != ""
    requires ' ' !in first && ' ' !in last
    ensures Split(first + " " + last) == [first, last]
  {
    var s := first + " " + last;
    assert s[|first|] == ' ';
    FieldsAfterWord(first, last);
    FieldsOfWord(last);
    assert Fields(s) == [first, last];
  }

  /** The decimal digit for `d`. */
  function DigitChar(d: nat): char
    requires d < 10
  {
    ('0' as int + d) as char
  }

  /** The text `%d` produces for a non-negative number: at least one digit and nothing else. */
  function Decimal(n: nat): (r: string)
    ensures |r| >= 1
    ensures forall i :: 0 <= i < |r| ==> IsDigit(r[i])
  {
    if n < 10 then [DigitChar(n)] else Decimal(n / 10) + [DigitChar(n % 10)]
  }

  /** The number a string of decimal digits stands for. */
  function DigitsValue(s: string): nat
    requires forall i :: 0 <= i < |s| ==> IsDigit(s[i])
  {
    if s == [] then 0
    else
      assert IsDigit(s[|s| - 1]);
      10 * DigitsValue(s[..|s| - 1]) + (s[|s| - 1] as int - '0' as int)
  }

  /** `%d` loses nothing: the number can be read back from its digits. */
  lemma {:induction false} DecimalRoundTrip(n: nat)
    ensures DigitsValue(Decimal(n)) == n
  {
    if n >= 10 {
      DecimalRoundTrip(n / 10);
      var d := Decimal(n);
      assert d[..|d| - 1] == Decimal(n / 10);
    }
  }

  /** The longest prefix of `s` made of decimal digits. */
  function LeadingDigits(s: string): (r: string)
    ensures |r| <= |s| && r == s[..|r|]
    ensures forall i :: 0 <= i < |r| ==> IsDigit(r[i])
  {
    if s == [] || !IsDigit(s[0]) then [] else [s[0]] + LeadingDigits(s[1..])
  }

  /** A run of digits followed by a non-digit (or by nothing) is read up to exactly that run. */
  lemma {:induction false} LeadingDigitsOf(digits: string, rest: string)
    requires forall i :: 0 <= i < |digits| ==> IsDigit(digits[i])
    requires rest == [] || !IsDigit(rest[0])
    ensures LeadingDigits(digits + rest) == digits
  {
    if digits != [] {
      assert (digits + rest)[1..] == digits[1..] + rest;
      LeadingDigitsOf(digits[1..], rest);
      assert [digits[0]] + digits[1..] == digits;
    } else {
      assert digits + rest == rest;
    }
  }

  /** The part of `s` before the first `c`, and the part after it; None when `c` does not occur. */
  function CutAtFirst(s: string, c: char): (r: Option<(string, string)>)
    ensures r.None? <==> c !in s
    ensures r.Some? ==> s == r.value.0 + [c] + r.value.1 && c !in r.value.0
  {
    if s == [] then None
    else if s[0] == c then Some(([], s[1..]))
    else match CutAtFirst(s[1..], c)
      case None => None
      case Some(p) => Some(([s[0]] + p.0, p.1))
  }

  /** Cutting at the first `c` undoes joining with `c` when the first part has no `c`. */
  lemma {:induction false} CutAtFirstJoin(a: string, c: char, b: string)
    requires c !in a
    ensures CutAtFirst(a + [c] + b, c) == Some((a, b))
  {
    if a != [] {
      assert (a + [c] + b)[1..] == a[1..] + [c] + b;
      assert c !in a[1..] by {
        forall k | 0 <= k < |a[1..]| ensures a[1..][k] != c { assert a[1..][k] == a[k + 1]; }
      }
      CutAtFirstJoin(a[1..], c, b);
      assert [a[0]] + a[1..] == a;
    } else {
      assert a + [c] + b == [c] + b;
    }
  }
}

=== FILE: tokens.dfy ===
/**
  TokenServiceImpl: one-time tokens for e-mail verification (valid 24 hours) and
  password reset (valid 2 hours), stored under their unique value, and their
  validation, which deletes a token found expired.
*/
module Tokens {
  import opened Common
  import opened Domain
  import opened Store

  /** How long a verification token lives, in seconds. */
  const VerificationLifetime: nat := 24 * HOUR

  /** How long a password-reset token lives, in seconds. */
  const ResetLifetime: nat := 2 * HOUR

  /** A token is expired when its expiry lies strictly before `now` (LocalDateTime.isBefore). */
  predicate Expired(t: Token, now: Time)
  {
    t.expiry < now
  }

  /** The verification token createVerificationToken builds at time `now`. */
  function VerificationToken(value: string, userId: UserId, now: Time): (t: Token)
    ensures t.value == value && t.userId == userId && t.tokenType == Verification
    ensures !Expired(t, now + 24 * HOUR) && Expired(t, now + 24 * HOUR + 1)
  {
    Token(value, Verification, now + VerificationLifetime, userId)
  }

  /** The password-reset token createPasswordResetToken builds at time `now`. */
  function ResetToken(value: string, userId: UserId, now: Time): (t: Token)
    ensures t.value == value && t.userId == userId && t.tokenType == PasswordReset
    ensures !Expired(t, now + 2 * HOUR) && Expired(t, now + 2 * HOUR + 1)
  {
    Token(value, PasswordReset, now + ResetLifetime, userId)
  }

  /** A token is live from its creation up to and including its expiry instant, and expired afterwards. */
  lemma {:induction false} LiveUntilExpiry(t: Token, created: Time, lifetime: nat, now: Time)
    requires t.expiry == created + lifetime
    ensures created <= now <= created + lifetime ==> !Expired(t, now)
    ensures now > created + lifetime ==> Expired(t, now)
  {
  }

  /** Once expired, a token stays expired at every later time. */
  lemma ExpiredStaysExpired(t: Token, now: Time, later: Time)
    requires Expired(t, now) && now <= later
    ensures Expired(t, later)
  {
  }

  /**
    Store one token: the value column is unique, so a value already stored fails
    with DataIntegrityViolation and stores nothing.
  */
  method SaveToken(db: Database, t: Token) returns (r: Result<Token>)
    requires db.Valid() && t.userId in db.users
    modifies db`tokens
    ensures db.Valid()
    ensures t.value in old(db.tokens) ==> r == Err(DataIntegrityViolation) && db.tokens == old(db.tokens)
    ensures t.value !in old(db.tokens) ==> r == Ok(t) && db.tokens == old(db.tokens)[t.value := t]
  {
    if t.value in db.tokens {
      return Err(DataIntegrityViolation);
    }
    db.tokens := db.tokens[t.value := t];
    r := Ok(t);
  }

  /** createVerificationToken: one VERIFICATION token for the user, expiring 24 hours from now. */
  method CreateVerificationToken(db: Database, userId: UserId, value: string, now: Time) returns (r: Result<Token>)
    requires db.Valid() && userId in db.users
    modifies db`tokens
    ensures db.Valid()
    ensures value in old(db.tokens) ==> r == Err(DataIntegrityViolation) && db.tokens == old(db.tokens)
    ensures value !in old(db.tokens) ==>
      r == Ok(VerificationToken(value, userId, now))
      && db.tokens == old(db.tokens)[value := VerificationToken(value, userId, now)]
  {
    r := SaveToken(db, VerificationToken(value, userId, now));
  }

  /** createPasswordResetToken: one PASSWORD_RESET token for the user, expiring 2 hours from now. */
  method CreatePasswordResetToken(db: Database, userId: UserId, value: string, now: Time) returns (r: Result<Token>)
    requires db.Valid() && userId in db.users
    modifies db`tokens
    ensures db.Valid()
    ensures value in old(db.tokens) ==> r == Err(DataIntegrityViolation) && db.tokens == old(db.tokens)
    ensures value !in old(db.tokens) ==>
      r == Ok(ResetToken(value, userId, now))
      && db.tokens == old(db.tokens)[value := ResetToken(value, userId, now)]
  {
    r := SaveToken(db, ResetToken(value, userId, now));
  }

  /**
    The outcome of validateToken on a token table: an unknown value or an expired
    token fails with InvalidToken, and a live token is returned.
  */
  function Validation(tokens: map<string, Token>, value: string, now: Time): (r: Result<Token>)
    ensures r.Ok? <==> value in tokens && !Expired(tokens[value], now)
    ensures r.Ok? ==> r.value == tokens[value]
    ensures r.Err? ==> r.error == InvalidToken
  {
    if value !in tokens then Err(InvalidToken)
    else if Expired(tokens[value], now) then Err(InvalidToken)
    else Ok(tokens[value])
  }

  /**
    validateToken: the table after the call loses the token exactly when it was
    found expired; otherwise nothing changes.
  */
  method ValidateToken(db: Database, value: string, now: Time) returns (r: Result<Token>)
    requires db.Valid()
    modifies db`tokens
    ensures db.Valid()
    ensures r == Validation(old(db.tokens), value, now)
    ensures (value in old(db.tokens) && Expired(old(db.tokens)[value], now)) ==>
      db.tokens == old(db.tokens) - {value}
    ensures !(value in old(db.tokens) && Expired(old(db.tokens)[value], now)) ==>
      db.tokens == old(db.tokens)
  {
    if value !in db.tokens {
      return Err(InvalidToken);
    }
    var token := db.tokens[value];
    if Expired(token, now) {
      db.tokens := db.tokens - {value};
      return Err(InvalidToken);
    }
    r := Ok(token);
  }

  /** A freshly created verification token validates throughout its 24 hours, and not one second later. */
  lemma VerificationTokenWindow(tokens: map<string, Token>, value: string, userId: UserId, created: Time, now: Time)
    ensures var tokens' := tokens[value := VerificationToken(value, userId, created)];
      (created <= now <= created + 24 * HOUR ==> Validation(tokens', value, now) == Ok(tokens'[value]))
      && (now > created + 24 * HOUR ==> Validation(tokens', value, now) == Err(InvalidToken))
  {
    LiveUntilExpiry(VerificationToken(value, userId, created), created, VerificationLifetime, now);
  }

  /** A freshly created reset token validates throughout its 2 hours, and not one second later. */
  lemma ResetTokenWindow(tokens: map<string, Token>, value: string, userId: UserId, created: Time, now: Time)
    ensures var tokens' := tokens[value := ResetToken(value, userId, created)];
      (created <= now <= created + 2 * HOUR ==> Validation(tokens', value, now) == Ok(tokens'[value]))
      && (now > created + 2 * HOUR ==> Validation(tokens', value, now) == Err(InvalidToken))
  {
    LiveUntilExpiry(ResetToken(value, userId, created), created, ResetLifetime, now);
  }

  /** After a validation that found the token expired, a second validation finds no token at all. */
  lemma ExpiredValidationIsFinal(tokens: map<string, Token>, value: string, now: Time, later: Time)
    requires value in tokens && Expired(tokens[value], now)
    ensures Validation(tokens - {value}, value, later) == Err(InvalidToken)
  {
  }
}

=== FILE: verification.dfy ===
/**
  VerificationServiceImpl (the newer copy): the desk router. A junior verifier's
  approval moves an application from DESK_1 to DESK_2, a senior verifier's from
  DESK_2 to UNDER_CERTIFICATE_GENERATION with status APPROVED and a generated
  certificate; reject and requestChanges hand it back to the applicant from any
  state. Every action appends one audit record.
*/
module Verification {
  import opened Common
  import opened Domain
  import opened Store
  import Audit
  import Text

  // ---------------------------------------------------------------------------
  // Listing and counting (read-only queries)
  // ---------------------------------------------------------------------------

  /** The desk a verifier of the given designation works on; None for anyone else. */
  function DeskOf(designation: Option<Designation>): Option<Desk>
  {
    match designation
    case Some(JuniorVerifier) => Some(Desk1)
    case Some(SeniorVerifier) => Some(Desk2)
    case None => None
  }

  /** The ids of the applications sitting on `desk`. */
  function OnDesk(apps: map<AppId, Application>, desk: Desk): set<AppId>
  {
    set id | id in apps && apps[id].desk == desk
  }

  /** The ids of the applications with status `status`. */
  function WithStatus(apps: map<AppId, Application>, status: ApplicationStatus): set<AppId>
  {
    set id | id in apps && apps[id].status == status
  }

  /**
    getPendingApplications: the applications on DESK_1 for a junior verifier and on
    DESK_2 for a senior one; a caller without a designation gets UnsupportedOperation.
  */
  function PendingApplications(apps: map<AppId, Application>, designation: Option<Designation>)
    : (r: Result<map<AppId, Application>>)
    ensures r.Err? <==> designation.None?
    ensures r.Err? ==> r.error == UnsupportedOperation
    ensures r.Ok? && designation == Some(JuniorVerifier) ==>
      forall id :: id in r.value <==> id in apps && apps[id].desk == Desk1
    ensures r.Ok? && designation == Some(SeniorVerifier) ==>
      forall id :: id in r.value <==> id in apps && apps[id].desk == Desk2
    ensures r.Ok? ==> forall id :: id in r.value ==> id in apps && r.value[id] == apps[id]
  {
    match DeskOf(designation)
    case None => Err(UnsupportedOperation)
    case Some(desk) => Ok(map id | id in apps && apps[id].desk == desk :: apps[id])
  }

  /** VerificationStatsResponse. */
  datatype VerificationStats = VerificationStats(
    totalApplied: nat, countOnDesk1: nat, countOnDesk2: nat, pending: nat, approved: nat, rejected: nat)

  /** getVerificationStats: counts by status and by desk over the whole table. */
  function StatsOf(apps: map<AppId, Application>): (s: VerificationStats)
    ensures s.countOnDesk1 + s.countOnDesk2 <= s.totalApplied
    ensures s.pending + s.approved + s.rejected <= s.totalApplied
  {
    DeskCountsBounded(apps);
    StatusCountsBounded(apps);
    VerificationStats(
      |apps|, |OnDesk(apps, Desk1)|, |OnDesk(apps, Desk2)|,
      |WithStatus(apps, Pending)|, |WithStatus(apps, Approved)|, |WithStatus(apps, Rejected)|)
  }

  /** getVerificationStats reads the table and writes nothing. */
  method GetVerificationStats(db: Database) returns (s: VerificationStats)
    ensures s == StatsOf(db.applications)
  {
    s := StatsOf(db.applications);
  }

  lemma DeskCountsBounded(apps: map<AppId, Application>)
    ensures |OnDesk(apps, Desk1)| + |OnDesk(apps, Desk2)| <= |apps|
  {
    var both := OnDesk(apps, Desk1) + OnDesk(apps, Desk2);
    assert OnDesk(apps, Desk1) * OnDesk(apps, Desk2) == {};
    assert both <= apps.Keys;
    SubsetSize(both, apps.Keys);
  }

  lemma StatusCountsBounded(apps: map<AppId, Application>)
    ensures |WithStatus(apps, Pending)| + |WithStatus(apps, Approved)| + |WithStatus(apps, Rejected)| <= |apps|
  {
    var p, a, j := WithStatus(apps, Pending), WithStatus(apps, Approved), WithStatus(apps, Rejected);
    assert p * a == {} && (p + a) * j == {};
    assert p + a + j <= apps.Keys;
    SubsetSize(p + a + j, apps.Keys);
  }

  lemma {:induction false} SubsetSize<T>(a: set<T>, b: set<T>)
    requires a <= b
    ensures |a| <= |b|
  {
    assert b == a + (b - a);
  }

  /** The position of a status in the declaration of ApplicationStatus. */
  function Ordinal(status: ApplicationStatus): nat
  {
    match status
    case Pending => 0
    case UnderReview => 1
    case Approved => 2
    case Rejected => 3
    case Reapplied => 4
    case ChangesRequested => 5
  }

  /** The ids of the applications whose status is declared before position `k`. */
  function StatusBelow(apps: map<AppId, Application>, k: nat): set<AppId>
  {
    set id | id in apps && Ordinal(apps[id].status) < k
  }

  lemma AddStatus(apps: map<AppId, Application>, status: ApplicationStatus)
    ensures |StatusBelow(apps, Ordinal(status) + 1)| == |StatusBelow(apps, Ordinal(status))| + |WithStatus(apps, status)|
  {
    var k := Ordinal(status);
    assert StatusBelow(apps, k + 1) == StatusBelow(apps, k) + WithStatus(apps, status);
    DisjointUnion(StatusBelow(apps, k), WithStatus(apps, status));
  }

  /** The six statuses partition the table: their counts add up to the total. */
  lemma StatusPartition(apps: map<AppId, Application>)
    ensures |WithStatus(apps, Pending)| + |WithStatus(apps, UnderReview)| + |WithStatus(apps, Approved)|
      + |WithStatus(apps, Rejected)| + |WithStatus(apps, Reapplied)| + |WithStatus(apps, ChangesRequested)| == |apps|
  {
    assert StatusBelow(apps, 0) == {};
    AddStatus(apps, Pending);
    AddStatus(apps, UnderReview);
    AddStatus(apps, Approved);
    AddStatus(apps, Rejected);
    AddStatus(apps, Reapplied);
    AddStatus(apps, ChangesRequested);
    assert StatusBelow(apps, 6) == apps.Keys;
  }

  lemma DisjointUnion<T>(a: set<T>, b: set<T>)
    requires a * b == {}
    ensures |a + b| == |a| + |b|
  {
  }

  /** The four desks partition the table. */
  lemma DeskPartition(apps: map<AppId, Application>)
    ensures |OnDesk(apps, Desk1)| + |OnDesk(apps, Desk2)| + |OnDesk(apps, UnderCertificateGeneration)|
      + |OnDesk(apps, Applicant)| == |apps|
  {
    var d1, d2 := OnDesk(apps, Desk1), OnDesk(apps, Desk2);
    var d3, d4 := OnDesk(apps, UnderCertificateGeneration), OnDesk(apps, Applicant);
    assert d1 * d2 == {};
    assert (d1 + d2) * d3 == {};
    assert (d1 + d2 + d3) * d4 == {};
    assert d1 + d2 + d3 + d4 == apps.Keys;
  }

  /** A junior's listing has exactly as many entries as the DESK_1 count of the statistics. */
  lemma PendingMatchesStats(apps: map<AppId, Application>, designation: Designation)
    ensures PendingApplications(apps, Some(designation)).Ok?
    ensures |PendingApplications(apps, Some(designation)).value| ==
      (if designation == JuniorVerifier then StatsOf(apps).countOnDesk1 else StatsOf(apps).countOnDesk2)
  {
    var desk := if designation == JuniorVerifier then Desk1 else Desk2;
    var listed := PendingApplications(apps, Some(designation)).value;
    assert listed.Keys == OnDesk(apps, desk);
  }

  /** When every application's desk and status agree, the approved count is the certificate desk's count. */
  lemma ApprovedIsCertificateDesk(apps: map<AppId, Application>)
    requires forall id :: id in apps ==> apps[id].Consistent()
    ensures |WithStatus(apps, Approved)| >= |OnDesk(apps, UnderCertificateGeneration)|
    ensures |WithStatus(apps, Pending)| >= |OnDesk(apps, Desk1)|
  {
    assert OnDesk(apps, UnderCertificateGeneration) <= WithStatus(apps, Approved);
    SubsetSize(OnDesk(apps, UnderCertificateGeneration), WithStatus(apps, Approved));
    assert OnDesk(apps, Desk1) <= WithStatus(apps, Pending);
    SubsetSize(OnDesk(apps, Desk1), WithStatus(apps, Pending));
  }

  // ---------------------------------------------------------------------------
  // The three actions on one application
  // ---------------------------------------------------------------------------

  /** The junior branch of approveApplication applies: a junior verifier and an application on DESK_1. */
  predicate JuniorMatch(app: Application, actor: User)
  {
    actor.designation == Some(JuniorVerifier) && app.desk == Desk1
  }

  /** The senior branch of approveApplication applies: a senior verifier and an application on DESK_2. */
  predicate SeniorMatch(app: Application, actor: User)
  {
    actor.designation == Some(SeniorVerifier) && app.desk == Desk2
  }

  /**
    The field updates of approveApplication: the junior and senior branches, then
    the resolved date and the approver, which are stamped whether or not a branch matched.
  */
  function Approve(app: Application, actor: User, now: Time): (r: Application)
    ensures SameSubmission(app, r)
    ensures r.resolvedDate == Some(now) && r.approvedBy == Some(actor.id)
    ensures r.rejectionReason == app.rejectionReason && r.certificatePdf == app.certificatePdf
    ensures JuniorMatch(app, actor) ==> r.desk == Desk2 && r.status == app.status
    ensures SeniorMatch(app, actor) ==> r.desk == UnderCertificateGeneration && r.status == Approved
    ensures !JuniorMatch(app, actor) && !SeniorMatch(app, actor) ==> r.desk == app.desk && r.status == app.status
  {
    var routed :=
      if JuniorMatch(app, actor) then app.(desk := Desk2)
      else if SeniorMatch(app, actor) then app.(desk := UnderCertificateGeneration, status := Approved)
      else app;
    routed.(resolvedDate := Some(now), approvedBy := Some(actor.id))
  }

  /** Approval keeps desk and status in agreement. */
  lemma ApprovePreservesConsistency(app: Application, actor: User, now: Time)
    requires app.Consistent()
    ensures Approve(app, actor, now).Consistent()
  {
  }

  /** Approval only ever moves an application forward along DESK_1, DESK_2, UNDER_CERTIFICATE_GENERATION. */
  lemma ApproveMovesForward(app: Application, actor: User, now: Time)
    ensures var r := Approve(app, actor, now);
      r.desk == app.desk || (app.desk == Desk1 && r.desk == Desk2)
      || (app.desk == Desk2 && r.desk == UnderCertificateGeneration)
  {
  }

  /** An application becomes APPROVED only through a senior verifier acting on DESK_2. */
  lemma ApprovedOnlyBySenior(app: Application, actor: User, now: Time)
    requires app.status != Approved
    requires Approve(app, actor, now).status == Approved
    ensures actor.designation == Some(SeniorVerifier) && app.desk == Desk2
  {
  }

  /** Two approvals by juniors cannot skip the senior desk: DESK_1 never reaches the certificate desk directly. */
  lemma JuniorsNeverApprove(app: Application, j1: User, j2: User, t1: Time, t2: Time)
    requires j1.designation == Some(JuniorVerifier) && j2.designation == Some(JuniorVerifier)
    requires app.desk == Desk1
    ensures Approve(Approve(app, j1, t1), j2, t2).desk == Desk2
    ensures Approve(Approve(app, j1, t1), j2, t2).status == app.status
  {
  }

  /** The field updates of rejectApplication, applied whatever the current state. */
  function Reject(app: Application, remarks: string, now: Time): (r: Application)
    ensures SameSubmission(app, r)
    ensures r.desk == Applicant && r.status == Rejected
    ensures r.resolvedDate == Some(now) && r.rejectionReason == Some(remarks)
    ensures r.approvedBy == app.approvedBy && r.certificatePdf == app.certificatePdf
  {
    app.(desk := Applicant, status := Rejected, resolvedDate := Some(now), rejectionReason := Some(remarks))
  }

  /** The field updates of requestChanges; the resolved date is left as it was. */
  function RequestChanges(app: Application, remarks: string): (r: Application)
    ensures SameSubmission(app, r)
    ensures r.desk == Applicant && r.status == ChangesRequested && r.rejectionReason == Some(remarks)
    ensures r.resolvedDate == app.resolvedDate && r.approvedBy == app.approvedBy
    ensures r.certificatePdf == app.certificatePdf
  {
    app.(status := ChangesRequested, desk := Applicant, rejectionReason := Some(remarks))
  }

  /** Rejecting and requesting changes keep desk and status in agreement, from any state. */
  lemma HandBackIsConsistent(app: Application, remarks: string, now: Time)
    ensures Reject(app, remarks, now).Consistent()
    ensures RequestChanges(app, remarks).Consistent()
  {
  }

  /**
    Nothing guards reject: an application that was already approved, with its
    certificate stored, can be rejected; the certificate stays stored, and so does the approver.
  */
  lemma RejectAfterApproval(app: Application, senior: User, remarks: string, t1: Time, t2: Time)
    requires senior.designation == Some(SeniorVerifier) && app.desk == Desk2
    ensures var a := Approve(app, senior, t1);
      a.status == Approved && Reject(a, remarks, t2).status == Rejected
      && Reject(a, remarks, t2).approvedBy == Some(senior.id)
  {
  }

  /** A second rejection overwrites the first one's reason and date. */
  lemma RejectTwice(app: Application, m1: string, m2: string, t1: Time, t2: Time)
    ensures Reject(Reject(app, m1, t1), m2, t2) == Reject(app, m2, t2)
  {
  }

  /** An application handed back to the applicant is never routed by approve: only the stamps change. */
  lemma ApproveAtApplicantDesk(app: Application, actor: User, now: Time)
    requires app.desk == Applicant
    ensures Approve(app, actor, now).desk == Applicant && Approve(app, actor, now).status == app.status
  {
  }

  /** A junior's approval takes the application off DESK_1 and puts it on DESK_2: the two counts move by one. */
  lemma {:induction false} JuniorStepCounts(apps: map<AppId, Application>, id: AppId, actor: User, now: Time)
    requires id in apps && apps[id].desk == Desk1
    requires actor.designation == Some(JuniorVerifier)
    ensures var after := apps[id := Approve(apps[id], actor, now)];
      |OnDesk(after, Desk1)| == |OnDesk(apps, Desk1)| - 1
      && |OnDesk(after, Desk2)| == |OnDesk(apps, Desk2)| + 1
      && |after| == |apps|
  {
    var after := apps[id := Approve(apps[id], actor, now)];
    assert OnDesk(after, Desk1) == OnDesk(apps, Desk1) - {id};
    assert OnDesk(after, Desk2) == OnDesk(apps, Desk2) + {id};
    assert after.Keys == apps.Keys;
  }

  // ---------------------------------------------------------------------------
  // The service calls
  // ---------------------------------------------------------------------------

  function ApprovedDetails(id: AppId, email: string, remarks: string): string
  {
    "Application " + Text.Decimal(id) + " approved by " + email + ". Remarks: " + remarks
  }

  function RejectedDetails(id: AppId, email: string, remarks: string): string
  {
    "Application " + Text.Decimal(id) + " rejected by " + email + ". Remarks: " + remarks
  }

  function ChangesRequestedDetails(id: AppId, email: string, remarks: string): string
  {
    "Changes requested for application " + Text.Decimal(id) + " by " + email + ". Remarks: " + remarks
  }

  function GenerationFailedDetails(id: AppId): string
  {
    "Failed for Application " + Text.Decimal(id)
  }

  /**
    The private getApplicationById helper: the stored application, or
    ResourceNotFound for an unknown id.
  */
  function FindApplication(apps: map<AppId, Application>, id: AppId): (r: Result<Application>)
    ensures r.Ok? <==> id in apps
    ensures r.Ok? ==> r.value == apps[id]
    ensures r.Err? ==> r.error == ResourceNotFound
  {
    if id in apps then Ok(apps[id]) else Err(ResourceNotFound)
  }

  /**
    The certificate step of approveApplication: an application that has reached
    UNDER_CERTIFICATE_GENERATION takes the rendered certificate, and a failed rendering
    (None) fails the approval; any other application is saved as routed.
  */
  function WithCertificate(routed: Application, pdf: Option<Bytes>): (r: Option<Application>)
    ensures r.None? <==> routed.desk == UnderCertificateGeneration && pdf.None?
    ensures r.Some? && routed.desk == UnderCertificateGeneration ==> r.value == routed.(certificatePdf := pdf)
    ensures r.Some? && routed.desk != UnderCertificateGeneration ==> r.value == routed
  {
    if routed.desk != UnderCertificateGeneration then Some(routed)
    else if pdf.None? then None
    else Some(routed.(certificatePdf := pdf))
  }

  /**
    approveApplication. The application is routed and stamped and saved; when it
    lands on UNDER_CERTIFICATE_GENERATION the certificate is rendered (the renderer
    is a parameter) and stored. A rendering failure records PDF_GENERATION_FAILED and
    fails the call with the application left as it was; otherwise one DOCUMENT_APPROVED
    record is appended.
  */
  method ApproveApplication(db: Database, id: AppId, actorId: UserId, remarks: string, now: Time,
                            render: Application -> Option<Bytes>)
    returns (r: Result<Application>)
    requires db.Valid() && actorId in db.users
    modifies db`applications, db`auditLog
    ensures db.Valid()
    ensures id !in old(db.applications) ==>
      r == Err(ResourceNotFound) && db.applications == old(db.applications) && db.auditLog == old(db.auditLog)
    ensures id in old(db.applications) ==>
      var routed := Approve(old(db.applications)[id], db.users[actorId], now);
      WithCertificate(routed, render(routed)).None? ==>
        r == Err(CertificateGenerationFailed)
        && db.applications == old(db.applications)
        && db.auditLog == old(db.auditLog)
           + [AuditRecord(actorId, "PDF_GENERATION_FAILED", GenerationFailedDetails(id), now)]
    ensures id in old(db.applications) ==>
      var routed := Approve(old(db.applications)[id], db.users[actorId], now);
      var saved := WithCertificate(routed, render(routed));
      saved.Some? ==>
        r == Ok(saved.value)
        && db.applications == old(db.applications)[id := saved.value]
        && db.auditLog == old(db.auditLog)
           + [AuditRecord(actorId, "DOCUMENT_APPROVED", ApprovedDetails(id, db.users[actorId].email, remarks), now)]
  {
    var found := FindApplication(db.applications, id);
    if found.Err? {
      return Err(found.error);
    }
    var verifier := db.users[actorId];
    var before := db.applications;
    var application := Approve(found.value, verifier, now);
    SaveApplication(db.applications, db.users, db.nextApplicationId, application);
    db.applications := db.applications[id := application];
    if application.desk == UnderCertificateGeneration {
      var pdf := render(application);
      if pdf.None? {
        Audit.LogActivity(db, actorId, "PDF_GENERATION_FAILED", GenerationFailedDetails(id), now);
        db.applications := before;
        return Err(CertificateGenerationFailed);
      }
      SaveApplication(before, db.users, db.nextApplicationId, application.(certificatePdf := pdf));
      application := application.(certificatePdf := pdf);
      db.applications := before[id := application];
    }
    Audit.LogActivity(db, actorId, "DOCUMENT_APPROVED", ApprovedDetails(id, verifier.email, remarks), now);
    r := Ok(application);
  }

  /**
    approveApplication as written: the PDF_GENERATION_FAILED record is written in
    the approval's own transaction, and the RuntimeException that follows rolls it
    back together with the save. A failed rendering therefore leaves no trace at all.
  */
  method ApproveApplicationAsWritten(db: Database, id: AppId, actorId: UserId, remarks: string, now: Time,
                                     render: Application -> Option<Bytes>)
    returns (r: Result<Application>)
    requires db.Valid() && actorId in db.users
    modifies db`applications, db`auditLog
    ensures db.Valid()
    ensures r == Err(CertificateGenerationFailed) ==>
      db.applications == old(db.applications) && db.auditLog == old(db.auditLog)
    ensures (id in old(db.applications)
             && var routed := Approve(old(db.applications)[id], db.users[actorId], now);
                WithCertificate(routed, render(routed)).None?) ==>
      r == Err(CertificateGenerationFailed)
    ensures id !in old(db.applications) ==>
      r == Err(ResourceNotFound) && db.applications == old(db.applications) && db.auditLog == old(db.auditLog)
    ensures id in old(db.applications) ==>
      var routed := Approve(old(db.applications)[id], db.users[actorId], now);
      var saved := WithCertificate(routed, render(routed));
      saved.Some? ==>
        r == Ok(saved.value)
        && db.applications == old(db.applications)[id := saved.value]
        && db.auditLog == old(db.auditLog)
           + [AuditRecord(actorId, "DOCUMENT_APPROVED", ApprovedDetails(id, db.users[actorId].email, remarks), now)]
  {
    var before := db.auditLog;
    r := ApproveApplication(db, id, actorId, remarks, now, render);
    if r == Err(CertificateGenerationFailed) {
      db.auditLog := before;
    }
  }

  /** rejectApplication: REJECTED on the applicant's desk with the remarks as reason, from any state. */
  method RejectApplication(db: Database, id: AppId, actorId: UserId, remarks: string, now: Time)
    returns (r: Result<Application>)
    requires db.Valid() && actorId in db.users
    modifies db`applications, db`auditLog
    ensures db.Valid()
    ensures id !in old(db.applications) ==>
      r == Err(ResourceNotFound) && db.applications == old(db.applications) && db.auditLog == old(db.auditLog)
    ensures id in old(db.applications) ==>
      var saved := Reject(old(db.applications)[id], remarks, now);
      r == Ok(saved)
      && db.applications == old(db.applications)[id := saved]
      && db.auditLog == old(db.auditLog)
         + [AuditRecord(actorId, "DOCUMENT_REJECTED", RejectedDetails(id, old(db.users)[actorId].email, remarks), now)]
  {
    var found := FindApplication(db.applications, id);
    if found.Err? {
      return Err(found.error);
    }
    var currentUser := db.users[actorId];
    var application := Reject(found.value, remarks, now);
    SaveApplication(db.applications, db.users, db.nextApplicationId, application);
    db.applications := db.applications[id := application];
    Audit.LogActivity(db, actorId, "DOCUMENT_REJECTED", RejectedDetails(id, currentUser.email, remarks), now);
    r := Ok(application);
  }

  /** requestChanges: CHANGES_REQUESTED on the applicant's desk with the remarks as reason. */
  method RequestChangesToApplication(db: Database, id: AppId, actorId: UserId, remarks: string, now: Time)
    returns (r: Result<Application>)
    requires db.Valid() && actorId in db.users
    modifies db`applications, db`auditLog
    ensures db.Valid()
    ensures id !in old(db.applications) ==>
      r == Err(ResourceNotFound) && db.applications == old(db.applications) && db.auditLog == old(db.auditLog)
    ensures id in old(db.applications) ==>
      var saved := RequestChanges(old(db.applications)[id], remarks);
      r == Ok(saved)
      && db.applications == old(db.applications)[id := saved]
      && db.auditLog == old(db.auditLog)
         + [AuditRecord(actorId, "CHANGES_REQUESTED",
                        ChangesRequestedDetails(id, old(db.users)[actorId].email, remarks), now)]
  {
    var found := FindApplication(db.applications, id);
    if found.Err? {
      return Err(found.error);
    }
    var currentUser := db.users[actorId];
    var application := RequestChanges(found.value, remarks);
    SaveApplication(db.applications, db.users, db.nextApplicationId, application);
    db.applications := db.applications[id := application];
    Audit.LogActivity(db, actorId, "CHANGES_REQUESTED", ChangesRequestedDetails(id, currentUser.email, remarks), now);
    r := Ok(application);
  }
}
